=== FILE: README.md ===
# instagram-scraper crawler core, modelled in Dafny

This project models `crawly.py`, a crawler that collects recent Instagram posts for a hashtag and stores them in MongoDB. It covers:

- **Normalisation.** `extract_owner_details`, `extract_recent_instagram_post` (the flat node shape of the landing page) and `extract_instagram_posts` (the nested node shape of the GraphQL pages). For the nested shape:
  - a node missing a key is skipped;
  - any other exception ends the batch;
  - a post carrying an excluded hashtag is dropped.
- **Hashtag extraction.** Split the caption on whitespace, keep the tokens starting with `#`, and delete the non-word characters.
- **The sink.** `HashTagSearchExample.save_results` with its unique `postId` index and running counters.
- **Query ids.** The scan for query-id candidates, and probing the candidates until the first one answers with a `hashtag` page.
- **Pagination.** The `while end_cursor is not None` loop of `extract_recent_tag`.

Modules, one per file:

- `Values` (`values.dfy`): decoded JSON as a datatype, with Python's subscript, `len` and `[0]` semantics. A missing key raises `KeyError`; subscripting a non-dict raises `TypeError`. It also defines `Result` for raised exceptions, and `Response`, the four shapes of GraphQL answer the loop distinguishes.
- `Hashtags` (`hashtags.dfy`): `str.split()` with Python's exact whitespace set, `re.sub(r'\W+', '', w)`, and the hashtag list of a caption.
- `Normalize` (`normalize.dfy`): owner details, flat posts, nested posts, the exclusion test and the batch loop with its `KeyError` skip.
- `Sink` (`sink.dfy`): `insert_one` under a unique index, `save_results` both as a function and as the counting loop the code writes.
- `QueryIds` (`query_ids.dfy`):
  - the scan `(?<=queryId:")[0-9]{17,17}` over one script, proved equal to the set of all positions where the pattern occurs;
  - `get_query_id` over a page's scripts;
  - the probe loop, both as written and corrected.
- `Crawl` (`crawl.dfy`):
  - the pagination loop as a step function run on fuel. The loop is parameterised by the page handler, which says what one page does to the store. The crawler's handler, `Crawl.Handle`, runs `extract_instagram_posts` and then `save_results`. The loop lemmas hold for any handler. `Crawl.PaginateConservesCounts` needs only the growth property `Crawl.Saves`, which `Crawl.HandleSaves` proves of the crawler's handler;
  - the whole of `extract_recent_tag`, from the decoded landing page to the end of the loop, as the code is written (`Crawl.ExtractRecentTag`, which hands the normalised first page and the candidate ids to `Crawl.CrawlFrom`);
  - the same crawl with the query-id selection corrected (`Crawl.ExtractRecentTagCorrected` and `Crawl.CrawlFromCorrected`, see "Findings"). Both crawls share `Crawl.CrawlAfter`, which runs from the normalised first page and the outcome of the selection.

Outside effects are parameters:

- the bodies of script URLs: `fetch`;
- the probe answer for a candidate id: `probe`;
- the feed of GraphQL answers for the chosen id: `feeds`. The feed is indexed by request number and cursor, so repeating a request may get a different answer.

Where the crawler's documented behaviour differs from the code, the model follows the code:

- Hashtags are stored without their leading `#`, because `\W` removes it (crawly.py:104).
- The loop has no retry limit, and it does not stop when a page repeats the cursor. A response without `hashtag` is re-requested with the same cursor forever (crawly.py:74-76).
- A page with no edges but a cursor carries on to that cursor (crawly.py:77-79).
- The flat first page is neither filtered for excluded tags nor protected against `KeyError`. One bad first-page node aborts the crawl (crawly.py:44-47).
- When no candidate query id is accepted, the crawl does not log and exit: it raises `UnboundLocalError` after saving the first page (crawly.py:52-68). `Crawl.ExtractRecentTag` does the same; the logged exit lives only in the corrected crawl.

## Model

| member | source | states |
|---|---|---|
| Hashtags.Token | crawly.py:104 | the first token of a caption is its longest whitespace-free prefix, and is followed by whitespace or the end |
| Hashtags.Split | crawly.py:104 | `str.split()` yields only non-empty, whitespace-free tokens; which tokens exactly is stated by `SplitInterleave` and `SplitDecomposes` |
| Hashtags.SplitKeepsNonSpace | crawly.py:104 | the tokens of `split()`, concatenated, are exactly the caption with its whitespace deleted, so no other character is lost or reordered |
| Hashtags.SplitJoinBlank | crawly.py:104 | splitting tokens joined by single blanks gives back exactly those tokens |
| Hashtags.SplitInterleave | crawly.py:104 | splitting gives back exactly the tokens whatever whitespace runs separate them (tabs, newlines, several characters), with any leading and trailing whitespace |
| Hashtags.SplitDecomposes | crawly.py:104 | every caption is its own split tokens interleaved with whitespace runs, non-empty between tokens; with `SplitInterleave` this fixes the result of `split()` on every input |
| Hashtags.SpaceIsNotWord | crawly.py:104 | the whitespace `split()` cuts on (Python's full `isspace` set) is never a word character and never the `#` that marks a hashtag |
| Hashtags.StripNonWord | crawly.py:104 | `re.sub(r'\W+', '', w)` leaves only word characters and never lengthens the word |
| Hashtags.StripNonWordAppend | crawly.py:104 | the substitution works character by character: it distributes over concatenation |
| Hashtags.StripNonWordKeepsWords | crawly.py:104 | a word made only of word characters is left unchanged |
| Hashtags.StripNonWordDropsNonWord | crawly.py:104 | a single non-word character is deleted; with `StripNonWordAppend` and `StripNonWordKeepsWords` this fixes the substitution on every string |
| Hashtags.StripNonWordCounts | crawly.py:104 | every word character survives as often as it occurs in the word, and no non-word character survives |
| Hashtags.StripNonWordIdempotent | crawly.py:104 | applying the substitution twice is the same as applying it once |
| Hashtags.StripOfHashWord | crawly.py:104 | `#` followed by word characters strips to exactly those characters |
| Hashtags.HashTokens | crawly.py:104-105 | no more tokens are kept than there are, and each kept token starts with `#` |
| Hashtags.HashTokensKeepsHashTokens | crawly.py:104-105 | a token is kept exactly when it occurs and starts with `#`, and it is kept as many times as it occurs, so duplicates survive |
| Hashtags.TagsOf | crawly.py:104-105 | one tag per `#` token, in order; each tag is that token with its non-word characters removed, contains only word characters and has no `#` |
| Hashtags.TagsOfAppend | crawly.py:104-105 | the tags of two token lists in sequence are the tags of the first followed by those of the second |
| Hashtags.HashTags | crawly.py:103-107 | no caption gives no tags; otherwise tag i is the i-th `#` token of the split caption with its non-word characters removed, so each is free of `#` and of non-word characters |
| Hashtags.HashTagsOfJoined | crawly.py:104-105 | the tags of a caption of tokens joined by single blanks are the tags of those tokens |
| Hashtags.HashTagsOfInterleaved | crawly.py:104-105 | the tags of a caption of tokens separated by any whitespace runs, with any leading and trailing whitespace, are the tags of those tokens |
| Hashtags.HashTagOfSingleWord | crawly.py:104-105 | a caption that is `#` followed by word characters is one token, since whitespace is never a word character, and gives exactly that word as its tag |
| Hashtags.HashTagsOfTwoCaptions | crawly.py:104-105 | the tags of two captions of blank-joined tokens, themselves joined by a blank, are the tags of each in sequence |
| Hashtags.HashTagOfPunctuationOnly | crawly.py:104-105 | a token of `#` and punctuation becomes the empty tag rather than disappearing |
| Hashtags.HashTagsExample | crawly.py:104-105 | the caption `Great day! #sun #fun2023 #a-b` gives `sun`, `fun2023`, `ab` |
| Normalize.OwnerDetails | crawly.py:90-95 | succeeds exactly when the owner is a dict with `id`. The user id is that `id`; the username is the `username` value or `None`; `isPrivate` holds exactly when the key `is_private` is present. A missing `id` raises `KeyError`, a non-dict owner `TypeError` |
| Normalize.OwnerPrivacyIgnoresValue | crawly.py:94 | an owner whose `is_private` is `false` is still private: only presence of the key matters |
| Normalize.FlatPost | crawly.py:97-115 | a non-dict node raises `TypeError`, a node without `owner` `KeyError`; a post is produced only when every subscripted key is present in its container, and always when they are and the caption is a string or absent; every field of the post is the node's corresponding value |
| Normalize.FlatMissingKeyRaisesKeyError | crawly.py:99-113 | a flat node whose containers are dicts and whose caption is a string or absent, but which lacks a key of `FlatShape` (every key on the path to each field), raises `KeyError` |
| Normalize.FlatNonDictOwnerRaisesTypeError | crawly.py:99 | a flat node whose `owner` is present but not a dict raises `TypeError` |
| Normalize.FlatCaptionRaisesAttributeError | crawly.py:102-105 | a flat node with every key whose caption is neither a string nor `None` raises `AttributeError` at `.split()` |
| Normalize.EdgeCaption | crawly.py:133-134 | an empty edge list, or any `edges` value of length 0 (an empty dict or string), gives no caption; a non-empty list gives the first edge's `node.text`; a non-empty dict raises `KeyError`; a value without `len` raises `TypeError` |
| Normalize.NestedPost | crawly.py:126-145 | a non-dict node raises `TypeError`, one without `node` `KeyError`; a post is produced only when the whole nested shape is present, and always when it is present and well typed; every field is the nested node's corresponding value, the caption being the first caption edge's text, or none when `edges` has length 0; the `TypeError` of a present container that is not a dict is stated by the `NestedNonDict…` lemmas below |
| Normalize.NestedMissingKeyRaisesKeyError | crawly.py:127-145 | a nested node whose containers have the types the code indexes, and whose first caption text (if any) is a string or `None`, but which lacks a key of `NestedShape`, raises `KeyError`, the error the batch loop skips; a missing `node` or `text` in the first caption edge is covered by `NestedCaptionEdgeRaisesKeyError` |
| Normalize.NestedNonDictNodeRaisesTypeError | crawly.py:128 | a nested node whose `node` is present but not a dict raises `TypeError`, which the batch loop does not skip |
| Normalize.NestedNonDictDimensionsRaisesTypeError | crawly.py:128 | a present `dimensions` that is not a dict raises `TypeError` |
| Normalize.NestedNonDictOwnerRaisesTypeError | crawly.py:128-130 | a node that reaches its `owner` and finds it present but not a dict raises `TypeError` |
| Normalize.NestedNonDictCaptionRaisesTypeError | crawly.py:128-133 | a node that reaches its caption and finds `edge_media_to_caption` present but not a dict raises `TypeError` |
| Normalize.NestedCaptionEdgeRaisesKeyError | crawly.py:133 | a nested node with every key of `NestedShape` whose first caption edge lacks `node`, or whose edge node lacks `text`, raises `KeyError` when the caption is read |
| Normalize.NestedCaptionRaisesAttributeError | crawly.py:133-138 | a nested node with every key whose first caption text is neither a string nor `None` raises `AttributeError`, which the batch loop does not catch |
| Normalize.Blocked | crawly.py:147 | the hashtag set meets the excluded set exactly when some tag of the post is excluded |
| Normalize.HashPrefixedExclusionNeverBlocks | crawly.py:147 | tags are stored without `#`, so an exclusion list whose entries all start with `#` never blocks a post |
| Normalize.FilterBatch | crawly.py:123-154 | the batch succeeds exactly when every node's outcome is a post or a `KeyError`; no kept post is blocked; at most one post per node |
| Normalize.FilterBatchFirstError | crawly.py:124-154 | a failing batch raises the exception of the first node that is neither a post nor a `KeyError` |
| Normalize.FilterBatchAppend | crawly.py:123-154 | the loop is an order-preserving filter: two batches in sequence give the posts of the first followed by those of the second |
| Normalize.FilterBatchMembership | crawly.py:147-151 | a post is kept exactly when some node produced it and none of its tags is excluded |
| Normalize.FilterBatchSkip | crawly.py:152-153 | a `KeyError` outcome anywhere in a batch leaves the result as if that node were absent |
| Normalize.ExtractPosts | crawly.py:117-154 | `extract_instagram_posts` succeeds exactly when every node normalises or raises `KeyError`; the result holds no blocked post and no more posts than nodes; a failure is the exception of the first node whose error is not `KeyError` |
| Normalize.ExtractPostsAppend | crawly.py:123-154 | extracting two node lists in sequence concatenates their posts |
| Normalize.ExtractPostsSingle | crawly.py:147-151 | a single good node gives its post unless it is blocked, and nothing if it is |
| Normalize.MalformedNodeSkipped | crawly.py:152-153 | a node that raises `KeyError` contributes nothing and does not disturb the rest of the batch |
| Normalize.TypeErrorNodeAbortsBatch | crawly.py:124-153 | a node that raises `TypeError`, after nodes the batch survives, ends the whole batch with `TypeError` whatever follows, since only `KeyError` is caught |
| Normalize.ExtractPostsMembership | crawly.py:147-151 | a post is in the result exactly when some node normalises to it and it carries no excluded tag |
| Normalize.RecentPosts | crawly.py:43-46 | the first-page loop succeeds exactly when every node normalises, keeping them all in order with no filter; otherwise it raises the first node's exception |
| Sink.InsertAll | crawly.py:182-187 | every post of the batch is counted as new or duplicate; afterwards every id of the batch is stored; the new count equals the number of ids added; the i-th insert succeeds exactly when its id was neither stored before nor earlier in the batch |
| Sink.SaveResults | crawly.py:178-189 | the stored ids grow by the batch's ids; `new_posts` rises by the number of ids added; both totals rise by exactly the batch size between them |
| Sink.SaveBatch | crawly.py:178-189 | the code's own counting loop: the two local counters add up to the batch size, the new count is the number of ids added, every id of the batch ends up stored, and the totals rise by the local counters |
| Sink.SaveResultsDetermined | crawly.py:178-189 | any store meeting what `SaveBatch` ensures is exactly the one `SaveResults` gives, so the loop and the function agree |
| Sink.SaveTwiceNoNew | crawly.py:178-189 | saving a batch again stores nothing new and counts every post as a duplicate |
| Sink.StoredBatchAllDuplicates | crawly.py:184-187 | a batch whose ids are all stored inserts nothing and refuses every post |
| Sink.RepeatedKeyInsertedOnce | crawly.py:182-187 | a `postId` repeated within one batch is refused at its later occurrence |
| QueryIds.ScanFrom | crawly.py:161 | every match is exactly 17 decimal digits |
| QueryIds.QueryIdsOf | crawly.py:161 | `re.findall` of the query-id pattern yields only 17-digit strings |
| QueryIds.NoMatchInside | crawly.py:161 | two matches of the pattern never overlap |
| QueryIds.ScanFindsAllMatches | crawly.py:161 | the left-to-right scan that skips past each match finds the same list as testing every position |
| QueryIds.AllMatchesMembership | crawly.py:161 | a string is among the matches from a position exactly when it sits right after `queryId:"` at or beyond that position |
| QueryIds.QueryIdsMembership | crawly.py:161 | a string is found in a script exactly when it follows a `queryId:"` marker somewhere in the text |
| QueryIds.QueryIdOfMarkedText | crawly.py:161 | `queryId:"` followed by 17 digits yields exactly that id |
| QueryIds.IsCommonsScript | crawly.py:159 | only a script with a `src` attribute at least as long as `en_US_Commons` can be a commons script |
| QueryIds.CommonsScriptRecognised | crawly.py:159 | a `src` containing `en_US_Commons` anywhere marks a commons script; a script without `src` is never one |
| QueryIds.GetQueryIds | crawly.py:156-163 | every candidate is a 17-digit id, and a page without an `en_US_Commons` script gives no candidate |
| QueryIds.GetQueryIdsAppend | crawly.py:158-162 | the candidates of a page are those of its scripts, in script order |
| QueryIds.GetQueryIdsSingle | crawly.py:158-162 | one script gives the ids found in the text fetched for its `src` when it is a commons script, and nothing otherwise |
| QueryIds.GetQueryIdsMembership | crawly.py:156-163 | an id is a candidate exactly when some commons script's fetched text contains it as a query id |
| QueryIds.Probe | crawly.py:52-65 | the first candidate whose answer has `hashtag` is chosen, and every earlier one was skipped; an answer without `data` before that raises `KeyError`; nothing is chosen exactly when every answer was not JSON or lacked `hashtag` |
| QueryIds.SelectQueryIdAsWritten | crawly.py:52-68 | as written, the first accepting candidate is chosen and any chosen id was accepted; it raises `UnboundLocalError` exactly when no candidate was accepted and none raised, and `KeyError` exactly when an answer without `data` comes before any accepted one |
| QueryIds.AsWrittenNeverExits | crawly.py:66-68 | as written, the `sys.exit(1)` branch is never reached |
| QueryIds.AsWrittenNoCandidates | crawly.py:52-68 | as written, a page with no candidate ids raises `UnboundLocalError` |
| QueryIds.AsWrittenAllSkipped | crawly.py:52-68 | when every candidate's answer is skipped, the written selection raises `UnboundLocalError` where the corrected one exits with status 1 |
| QueryIds.SelectQueryId | crawly.py:52-68 | the first accepting candidate is chosen. Any chosen id was accepted. The run exits with status 1 exactly when no candidate was accepted and none raised. It raises `KeyError` exactly when an answer without `data` comes before any accepted one |
| QueryIds.SelectionsAgreeExceptWhenNoneAccepted | crawly.py:52-68 | the written and corrected selections agree whenever some candidate is accepted or raises |
| Crawl.SavePage | crawly.py:77-79 | a page is saved exactly when none of its nodes raises anything but `KeyError`; a saved page adds the ids of the posts that survive the filter and counts each added id as new; an escaping error is never `KeyError` and is the error of one of the nodes |
| Crawl.HandleSaves | crawly.py:78-79 | handling a page only adds ids and counts each added id as a new post |
| Crawl.Step | crawly.py:71-79 | one pass counts one request; an answer without `hashtag` never raises and leaves cursor and store alone; only a page moves the cursor, to the page's own `end_cursor`; outside a page the only exceptions are `JSONDecodeError` and `KeyError` |
| Crawl.Paginate | crawly.py:70-79 | the loop leaves normally only with a `None` cursor; it stops short only with a cursor pending, after no more requests than allowed |
| Crawl.PaginateConservesCounts | crawly.py:70-79 | across the loop the stored ids only grow and `new_posts` rises by exactly the number of ids added |
| Crawl.StuckCursorNeverEnds | crawly.py:74-76 | a feed that keeps answering without `hashtag` for the pending cursor keeps the loop on that cursor forever, saving nothing |
| Crawl.LoopEndsOnEndingFeed | crawly.py:70-77 | a feed that reaches a `None` cursor or an error within k requests ends the loop within k requests |
| Crawl.PaginateFuelMonotone | crawly.py:70-79 | the request bound is only a cut-off: a run that ended ends the same way with a larger bound |
| Crawl.PageErrorAborts | crawly.py:77-79 | a page whose handling raises ends the loop with that exception and leaves the store as it was |
| Crawl.BadResponseAborts | crawly.py:73-74 | a body that is not JSON ends the loop with `JSONDecodeError`, one without `data` with `KeyError`, the store as it was in both cases |
| Crawl.NoHashtagRetries | crawly.py:74-76 | a response without `hashtag` repeats the request with the same cursor and the store unchanged |
| Crawl.PageAdvances | crawly.py:77-79 | a handled page moves the loop to that page's own `end_cursor`, whatever it is, with the page saved |
| Crawl.EmptyPageContinues | crawly.py:77-79 | a page without edges but with a cursor saves nothing and continues from that cursor |
| Crawl.CrawlAfter | crawly.py:44-79 | a first-page error aborts with the store untouched; otherwise the first page is saved, a failed selection aborts with its exception after that save; the stored ids only grow, `new_posts` counts exactly the ids added, and a normal end has a `None` cursor |
| Crawl.CrawlFrom | crawly.py:44-79 | as written: a first-page error aborts before anything is saved; when every candidate is skipped the saved first page is followed by `UnboundLocalError`; a `KeyError` probe aborts after the save; every first-page post is stored, the ids only grow, `new_posts` counts the ids added, and a normal end has a `None` cursor |
| Crawl.CrawlFromCorrected | crawly.py:52-79 | as intended: the same, except that when every candidate is skipped the saved first page is followed by the exit with status 1 |
| Crawl.AcceptedIdRunsLoop | crawly.py:49-79 | once a candidate is accepted, both crawls are the loop for that candidate's feed, started from the first page's cursor with the first page saved and no request made yet |
| Crawl.StuckFirstCursorNeverEnds | crawly.py:49-76 | once an id is accepted, a first-page cursor that the feed keeps answering without `hashtag` keeps the crawl on that cursor for every request bound, with only the first page saved |
| Crawl.ExtractRecentTag | crawly.py:31-79 | whatever the landing page and the answers, the crawl only adds ids, `new_posts` rises by exactly the number added, and a run that ends normally ends on a `None` cursor |
| Crawl.ExtractRecentTagCorrected | crawly.py:31-79 | the same for the crawl with the corrected selection |
| Crawl.FirstPageErrorAborts | crawly.py:44-47 | one first-page node that does not normalise aborts the crawl with the store untouched |
| Crawl.NoCommonsScriptRaises | crawly.py:44-68 | as written, a landing page without commons scripts saves the first page and then raises `UnboundLocalError`, before any loop request |
| Crawl.NoCommonsScriptExitsCorrected | crawly.py:66-68 | with the corrected selection the same page saves the first page and exits with status 1 |
| Crawl.FirstPageIgnoresExclusions | crawly.py:43-47 | when the first page normalises, every one of its posts ends up stored, whatever its hashtags and the exclusion set |

## Left out

- Fetching pages (`requests.get`), HTML parsing (BeautifulSoup `find_all("script")`, `has_attr`) and JSON decoding. Scripts are given as their `src` values; bodies, probe answers and feed answers are parameters.
- `extract_shared_data` (crawly.py:81-88), the regex rewriting of the `window._sharedData` script and the path `['entry_data']['TagPage'][0]['tag']['media']`. The model starts from the decoded `nodes` list and first `end_cursor` (`Crawl.TagPage`). A landing page lacking these keys raises in the code and is not modelled.
- Within a GraphQL answer, the `KeyError`s and `TypeError`s raised by `['hashtag']['edge_hashtag_to_media']['page_info']['end_cursor']` or by a `data` that is `null` or not a dict, both in the probe (crawly.py:56-57) and in the loop (crawly.py:73-78). `Values.Response` abstracts an answer to one of four shapes: not JSON, no `data`, no `hashtag`, or a page.
- MongoDB mechanics: the connection, the index creation call and the stored documents. The collection is the set of stored `postId` values; array-valued ids under a multikey index are not modelled.
- Configuration loading, the random choice of tag, timing and logging in `__main__` (crawly.py:194-216), and the log lines of the other functions.
- JSON floats: `Values.Json` has no float values. Nothing the crawler decides depends on them (a float caption or `edges` fails as an `int` does); the one difference is the unique `postId` index, where `1.0` and `1` collide, which the model does not show.
- `Hashtags.StripNonWord`: treats only ASCII letters, digits and `_` as word characters. Python's `\W` on `str` also keeps non-ASCII letters and digits, so this contract is weaker than the source for non-ASCII captions.
- `Crawl.Paginate`: runs on a fuel bound, the number of requests allowed. A run that would go on forever shows up as `OutOfFuel` for every bound rather than as divergence.
- `QueryIds.Probe`: a candidate's answer is a function of the id alone. In the code the probe URL also carries the tag and the first cursor, which are fixed during one crawl.

## Findings

| source | as written | input that shows it | evidently intended | confidence | as-written member | corrected member |
|---|---|---|---|---|---|---|
| crawly.py:52-68 | `success` is only assigned inside the loop when a candidate is accepted, and `if not success` reads it afterwards | a landing page with no `en_US_Commons` script (no candidates), or one where every probe answer is not JSON or lacks `hashtag` | log the error and exit with status 1 when no query id works | not executed | QueryIds.AsWrittenAllSkipped | QueryIds.SelectQueryId |
| crawly.py:44-68 | the same unbound `success` ends the whole crawl: the first page is saved and `extract_recent_tag` then raises `UnboundLocalError` | a landing page without an `en_US_Commons` script | save the first page, log the error and exit with status 1 | not executed | Crawl.NoCommonsScriptRaises | Crawl.CrawlFromCorrected |

=== FILE: crawl.dfy ===
/** `extract_recent_tag`: save the flat first page, choose a query id, then
    follow the pagination cursor until it is `None`, normalising and saving
    every page on the way. */
module Crawl {
  import opened Values
  import opened Normalize
  import opened Sink
  import opened QueryIds

  /** The feed the loop pages through for the chosen query id: the response to
      the `n`-th request of the loop, for the cursor it carries. Indexing by
      `n` lets a repeated request for the same cursor get a different answer. */
  type Feed = (nat, string) -> Response

  /** The loop's state: the current `end_cursor`, the sink, and how many
      requests the loop has made. */
  datatype LoopState = LoopState(cursor: Option<string>, store: Store, step: nat)

  /** How a bounded run of the loop ends: the cursor became `None`, an
      exception escaped, or the fuel ran out while a cursor was still pending. */
  datatype Run =
    | Exhausted(final: LoopState)
    | Aborted(error: PyError, store: Store)
    | OutOfFuel(final: LoopState)

  function RunStore(r: Run): Store
  {
    match r
    case Exhausted(st) => st.store
    case Aborted(_, s) => s
    case OutOfFuel(st) => st.store
  }

  /** What the loop does with a page's `edges`: save them into the store, or
      raise. The crawler's handler is `Handle(excluded)`; the loop's own lemmas
      hold for any handler. */
  type Handler = (Store, seq<Json>) -> Result<Store>

  /** The body of the loop after the cursor update: `extract_instagram_posts`
      with the crawler's exclusion set, then `save_results`. The page is saved
      exactly when no node raises anything but `KeyError`; a saved page adds
      the ids of the posts that survive the filter and counts each added id as
      a new post. */
  function SavePage(excluded: set<string>, s: Store, edges: seq<Json>): (r: Result<Store>)
    ensures r.Ok? <==> forall i :: 0 <= i < |edges| ==> Survivable(NestedPost(edges[i]))
    ensures r.Ok? ==> Grows(s, r.value)
    ensures r.Ok? ==> r.value.ids == s.ids + Elems(PostIds(ExtractPosts(edges, excluded).value))
    ensures r.Err? ==> r.error != KeyError && exists i :: 0 <= i < |edges| && NestedPost(edges[i]) == Err(r.error)
  {
    var posts :- ExtractPosts(edges, excluded);
    Ok(SaveResults(s, posts))
  }

  function Handle(excluded: set<string>): (h: Handler)
    ensures forall s, edges :: h(s, edges) == SavePage(excluded, s, edges)
  {
    (s, edges) => SavePage(excluded, s, edges)
  }

  /** A save that only adds ids and counts each added id as a new post. */
  ghost predicate Grows(s: Store, t: Store)
  {
    && s.ids <= t.ids
    && t.newPosts == s.newPosts + |t.ids - s.ids|
    && t.duplicatePosts >= s.duplicatePosts
  }

  ghost predicate Saves(handle: Handler)
  {
    forall s, edges :: handle(s, edges).Ok? ==> Grows(s, handle(s, edges).value)
  }

  lemma HandleSaves(excluded: set<string>)
    ensures Saves(Handle(excluded))
  {
  }

  /** One pass of `while end_cursor is not None`: a body that is not JSON or has
      no `data` raises; a response without `hashtag` is skipped by `continue`,
      leaving the cursor as it was; a page replaces the cursor with its own
      `end_cursor` and hands its edges to the handler. */
  function Step(feed: Feed, handle: Handler, st: LoopState): (r: Result<LoopState>)
    requires st.cursor.Some?
    ensures r.Ok? ==> r.value.step == st.step + 1
    ensures feed(st.step, st.cursor.value).NoHashtag? ==> r.Ok?
    ensures r.Ok? && !feed(st.step, st.cursor.value).Page? ==>
              r.value.cursor == st.cursor && r.value.store == st.store
    ensures r.Ok? && feed(st.step, st.cursor.value).Page? ==>
              r.value.cursor == feed(st.step, st.cursor.value).endCursor
    ensures r.Err? && !feed(st.step, st.cursor.value).Page? ==>
              r.error == JsonDecodeError || r.error == KeyError
  {
    match feed(st.step, st.cursor.value)
    case NotJson => Err(JsonDecodeError)
    case NoData => Err(KeyError)
    case NoHashtag => Ok(LoopState(st.cursor, st.store, st.step + 1))
    case Page(next, edges) =>
      var saved :- handle(st.store, edges);
      Ok(LoopState(next, saved, st.step + 1))
  }

  /** The loop run for at most `fuel` requests. It leaves only when the cursor
      is `None`; the fuel is the model's bound, not the code's. */
  function Paginate(feed: Feed, handle: Handler, st: LoopState, fuel: nat): (r: Run)
    ensures r.Exhausted? ==> r.final.cursor.None?
    ensures r.OutOfFuel? ==> r.final.cursor.Some?
    ensures r.Exhausted? || r.OutOfFuel? ==> st.step <= r.final.step <= st.step + fuel
    ensures st.cursor.None? ==> r == Exhausted(st)
    decreases fuel
  {
    if st.cursor.None? then Exhausted(st)
    else if fuel == 0 then OutOfFuel(st)
    else
      match Step(feed, handle, st)
      case Err(e) => Aborted(e, st.store)
      case Ok(next) => Paginate(feed, handle, next, fuel - 1)
  }

  /** Across the whole loop the sink only grows, and the new-post counter rises
      by exactly the number of ids the run added to the collection. */
  lemma {:induction false} PaginateConservesCounts(feed: Feed, handle: Handler, st: LoopState, fuel: nat)
    requires Saves(handle)
    ensures var s := RunStore(Paginate(feed, handle, st, fuel));
            && st.store.ids <= s.ids
            && s.newPosts == st.store.newPosts + |s.ids - st.store.ids|
            && s.duplicatePosts >= st.store.duplicatePosts
    decreases fuel
  {
    if st.cursor.Some? && fuel > 0 {
      var r := Step(feed, handle, st);
      if r.Ok? {
        var next := r.value;
        PaginateConservesCounts(feed, handle, next, fuel - 1);
        var s := RunStore(Paginate(feed, handle, next, fuel - 1));
        if feed(st.step, st.cursor.value).Page? {
          assert Grows(st.store, next.store);
        } else {
          assert next.store == st.store;
        }
        DifferenceChain(st.store.ids, next.store.ids, s.ids);
      }
    }
  }

  lemma DifferenceChain(a: set<Json>, b: set<Json>, c: set<Json>)
    requires a <= b <= c
    ensures |c - a| == |c - b| + |b - a|
  {
    assert c - a == (c - b) + (b - a);
    assert (c - b) !! (b - a);
  }

  /** A feed that answers every request for cursor `c` from request `st.step`
      on with a response lacking `hashtag` keeps the loop spinning on `c`: no
      amount of fuel ends it, and nothing is saved. */
  lemma {:induction false} StuckCursorNeverEnds(feed: Feed, handle: Handler, st: LoopState, fuel: nat)
    requires st.cursor.Some?
    requires forall n :: st.step <= n ==> feed(n, st.cursor.value).NoHashtag?
    ensures Paginate(feed, handle, st, fuel) == OutOfFuel(LoopState(st.cursor, st.store, st.step + fuel))
    decreases fuel
  {
    if fuel > 0 {
      var next := LoopState(st.cursor, st.store, st.step + 1);
      assert Step(feed, handle, st) == Ok(next);
      StuckCursorNeverEnds(feed, handle, next, fuel - 1);
    }
  }

  /** The feed, followed from cursor `c` at request `n`, ends within `k`
      requests: some response raises or carries a `None` cursor. */
  ghost predicate EndsWithin(feed: Feed, c: string, n: nat, k: nat)
    decreases k
  {
    k > 0 &&
    match feed(n, c)
    case NotJson => true
    case NoData => true
    case NoHashtag => EndsWithin(feed, c, n + 1, k - 1)
    case Page(next, _) => next.None? || EndsWithin(feed, next.value, n + 1, k - 1)
  }

  /** Under that assumption about the feed, enough fuel always ends the loop:
      it exhausts the cursor or an exception escapes. */
  lemma {:induction false} LoopEndsOnEndingFeed(feed: Feed, handle: Handler, st: LoopState, k: nat, fuel: nat)
    requires st.cursor.Some? && EndsWithin(feed, st.cursor.value, st.step, k)
    requires k <= fuel
    ensures !Paginate(feed, handle, st, fuel).OutOfFuel?
    decreases k
  {
    var r := Step(feed, handle, st);
    if r.Ok? {
      var next := r.value;
      var resp := feed(st.step, st.cursor.value);
      if resp.NoHashtag? {
        LoopEndsOnEndingFeed(feed, handle, next, k - 1, fuel - 1);
      } else if resp.endCursor.Some? {
        LoopEndsOnEndingFeed(feed, handle, next, k - 1, fuel - 1);
      }
    }
  }

  /** Fuel is only a cut-off: once a run ends, more fuel ends it the same way. */
  lemma {:induction false} PaginateFuelMonotone(feed: Feed, handle: Handler, st: LoopState, fuel: nat, more: nat)
    requires fuel <= more
    requires !Paginate(feed, handle, st, fuel).OutOfFuel?
    ensures Paginate(feed, handle, st, more) == Paginate(feed, handle, st, fuel)
    decreases fuel
  {
    if st.cursor.Some? {
      assert fuel > 0;
      var r := Step(feed, handle, st);
      if r.Ok? {
        PaginateFuelMonotone(feed, handle, r.value, fuel - 1, more - 1);
      }
    }
  }

  /** A page whose handling raises ends the loop with that exception and the
      store as it was; for the crawler's handler that is any extraction error
      other than a per-node `KeyError` (`SavePage`). */
  lemma PageErrorAborts(feed: Feed, handle: Handler, st: LoopState, fuel: nat)
    requires st.cursor.Some? && fuel > 0
    requires feed(st.step, st.cursor.value).Page?
    requires handle(st.store, feed(st.step, st.cursor.value).edges).Err?
    ensures Paginate(feed, handle, st, fuel)
              == Aborted(handle(st.store, feed(st.step, st.cursor.value).edges).error, st.store)
  {
  }

  /** A body that is not JSON, or JSON without `data`, raises out of the loop
      with the store as it was. */
  lemma BadResponseAborts(feed: Feed, handle: Handler, st: LoopState, fuel: nat)
    requires st.cursor.Some? && fuel > 0
    ensures feed(st.step, st.cursor.value).NotJson? ==>
              Paginate(feed, handle, st, fuel) == Aborted(JsonDecodeError, st.store)
    ensures feed(st.step, st.cursor.value).NoData? ==>
              Paginate(feed, handle, st, fuel) == Aborted(KeyError, st.store)
  {
  }

  /** A response without `hashtag` repeats the request for the same cursor and
      saves nothing. */
  lemma NoHashtagRetries(feed: Feed, handle: Handler, st: LoopState, fuel: nat)
    requires st.cursor.Some? && fuel > 0
    requires feed(st.step, st.cursor.value).NoHashtag?
    ensures Paginate(feed, handle, st, fuel) == Paginate(feed, handle, LoopState(st.cursor, st.store, st.step + 1), fuel - 1)
  {
  }

  /** A page that is handled moves the loop to the page's own `end_cursor`,
      whatever it is, with the handled store. */
  lemma PageAdvances(feed: Feed, handle: Handler, st: LoopState, fuel: nat)
    requires st.cursor.Some? && fuel > 0
    requires feed(st.step, st.cursor.value).Page?
    requires handle(st.store, feed(st.step, st.cursor.value).edges).Ok?
    ensures var page := feed(st.step, st.cursor.value);
            Paginate(feed, handle, st, fuel)
              == Paginate(feed, handle, LoopState(page.endCursor, handle(st.store, page.edges).value, st.step + 1), fuel - 1)
  {
  }

  /** A page without edges that still carries a cursor saves nothing and moves
      the loop on to that cursor. */
  lemma EmptyPageContinues(feed: Feed, excluded: set<string>, st: LoopState, c: string, fuel: nat)
    requires st.cursor.Some? && fuel > 0
    requires feed(st.step, st.cursor.value) == Page(Some(c), [])
    ensures Paginate(feed, Handle(excluded), st, fuel)
              == Paginate(feed, Handle(excluded), LoopState(Some(c), st.store, st.step + 1), fuel - 1)
  {
    EmptyPageSavesNothing(excluded, st.store);
    PageAdvances(feed, Handle(excluded), st, fuel);
  }

  lemma EmptyPageSavesNothing(excluded: set<string>, s: Store)
    ensures Handle(excluded)(s, []) == Ok(s)
  {
    assert ExtractPosts([], excluded) == Ok([]);
    assert Elems(PostIds([])) == {};
    assert SaveResults(s, []) == s;
  }

  /** The part of the tag page the crawler reads: `media['nodes']` and
      `media['page_info']['end_cursor']`. */
  datatype TagPage = TagPage(nodes: seq<Json>, endCursor: Option<string>)

  /** `extract_recent_tag` from the point where the first page has been
      normalised (`first`) and a query id chosen (`chosen`): an error on the
      first page aborts before anything is saved; otherwise the first page is
      saved, a failed choice aborts with the saved store, and a chosen id starts
      the loop from the first page's cursor with no request made yet. */
  function CrawlAfter(
    first: Result<seq<Post>>, endCursor: Option<string>, chosen: Result<string>,
    feeds: string -> Feed, store: Store, excluded: set<string>, fuel: nat): (r: Run)
    ensures first.Err? ==> r == Aborted(first.error, store)
    ensures first.Ok? && chosen.Err? ==> r == Aborted(chosen.error, SaveResults(store, first.value))
    ensures first.Ok? ==> Elems(PostIds(first.value)) <= RunStore(r).ids
    ensures store.ids <= RunStore(r).ids
    ensures RunStore(r).newPosts == store.newPosts + |RunStore(r).ids - store.ids|
    ensures r.Exhausted? ==> r.final.cursor.None?
  {
    match first
    case Err(e) => Aborted(e, store)
    case Ok(posts) =>
      var saved := SaveResults(store, posts);
      match chosen
      case Err(e) => Aborted(e, saved)
      case Ok(queryId) =>
        var st := LoopState(endCursor, saved, 0);
        HandleSaves(excluded);
        PaginateConservesCounts(feeds(queryId), Handle(excluded), st, fuel);
        DifferenceChain(store.ids, saved.ids, RunStore(Paginate(feeds(queryId), Handle(excluded), st, fuel)).ids);
        Paginate(feeds(queryId), Handle(excluded), st, fuel)
  }

  /** The crawl as written, from the normalised first page and the candidate
      ids `cands`: the first accepted candidate drives the loop; when every
      candidate is skipped (or there is none) the saved first page is followed
      by `UnboundLocalError` rather than by the intended exit. */
  function CrawlFrom(
    first: Result<seq<Post>>, endCursor: Option<string>, cands: seq<string>,
    probe: string -> Response, feeds: string -> Feed,
    store: Store, excluded: set<string>, fuel: nat): (r: Run)
    ensures first.Err? ==> r == Aborted(first.error, store)
    ensures first.Ok? && (forall j :: 0 <= j < |cands| ==> Skipped(probe(cands[j]))) ==>
              r == Aborted(UnboundLocalError, SaveResults(store, first.value))
    ensures forall k :: first.Ok? && RaisesAt(cands, probe, k) ==>
              r == Aborted(KeyError, SaveResults(store, first.value))
    ensures first.Ok? ==> Elems(PostIds(first.value)) <= RunStore(r).ids
    ensures store.ids <= RunStore(r).ids
    ensures RunStore(r).newPosts == store.newPosts + |RunStore(r).ids - store.ids|
    ensures r.Exhausted? ==> r.final.cursor.None?
  {
    CrawlAfter(first, endCursor, SelectQueryIdAsWritten(cands, probe), feeds, store, excluded, fuel)
  }

  /** The crawl as intended: the same, except that when no candidate is
      accepted it logs and exits with status 1. */
  function CrawlFromCorrected(
    first: Result<seq<Post>>, endCursor: Option<string>, cands: seq<string>,
    probe: string -> Response, feeds: string -> Feed,
    store: Store, excluded: set<string>, fuel: nat): (r: Run)
    ensures first.Err? ==> r == Aborted(first.error, store)
    ensures first.Ok? && (forall j :: 0 <= j < |cands| ==> Skipped(probe(cands[j]))) ==>
              r == Aborted(SystemExit(1), SaveResults(store, first.value))
    ensures forall k :: first.Ok? && RaisesAt(cands, probe, k) ==>
              r == Aborted(KeyError, SaveResults(store, first.value))
    ensures first.Ok? ==> Elems(PostIds(first.value)) <= RunStore(r).ids
    ensures store.ids <= RunStore(r).ids
    ensures RunStore(r).newPosts == store.newPosts + |RunStore(r).ids - store.ids|
    ensures r.Exhausted? ==> r.final.cursor.None?
  {
    CrawlAfter(first, endCursor, SelectQueryId(cands, probe), feeds, store, excluded, fuel)
  }

  /** Once a candidate is accepted, both crawls run the loop for its feed from
      the first page's cursor, with the first page saved and no request made
      yet: the two differ only when no candidate is accepted. */
  lemma AcceptedIdRunsLoop(
    first: Result<seq<Post>>, endCursor: Option<string>, cands: seq<string>,
    probe: string -> Response, feeds: string -> Feed,
    store: Store, excluded: set<string>, fuel: nat, k: nat)
    requires first.Ok? && AcceptsAt(cands, probe, k)
    ensures var loop := Paginate(feeds(cands[k]), Handle(excluded), LoopState(endCursor, SaveResults(store, first.value), 0), fuel);
            && CrawlFrom(first, endCursor, cands, probe, feeds, store, excluded, fuel) == loop
            && CrawlFromCorrected(first, endCursor, cands, probe, feeds, store, excluded, fuel) == loop
  {
    assert SelectQueryIdAsWritten(cands, probe) == Ok(cands[k]);
    assert SelectQueryId(cands, probe) == Ok(cands[k]);
  }

  /** Once a query id is accepted, a first-page cursor on which the feed never
      answers with `hashtag` keeps the crawl spinning: no amount of fuel ends
      it, and nothing beyond the first page is saved. */
  lemma StuckFirstCursorNeverEnds(
    first: Result<seq<Post>>, c: string, cands: seq<string>,
    probe: string -> Response, feeds: string -> Feed,
    store: Store, excluded: set<string>, fuel: nat, k: nat)
    requires first.Ok? && AcceptsAt(cands, probe, k)
    requires forall n :: feeds(cands[k])(n, c).NoHashtag?
    ensures CrawlFrom(first, Some(c), cands, probe, feeds, store, excluded, fuel)
              == OutOfFuel(LoopState(Some(c), SaveResults(store, first.value), fuel))
  {
    AcceptedIdRunsLoop(first, Some(c), cands, probe, feeds, store, excluded, fuel, k);
    StuckCursorNeverEnds(feeds(cands[k]), Handle(excluded), LoopState(Some(c), SaveResults(store, first.value), 0), fuel);
  }

  /** `extract_recent_tag` for a tag whose landing page decodes to `page`: the
      flat first page is normalised without any exclusion filter, and the
      candidate ids come from the page's commons scripts. Whatever happens,
      the collection only grows, each added id counts as one new post, and a
      run that ends normally ends on a `None` cursor. */
  function ExtractRecentTag(
    page: TagPage, scripts: seq<Script>, fetch: string -> string,
    probe: string -> Response, feeds: string -> Feed,
    store: Store, excluded: set<string>, fuel: nat): (r: Run)
    ensures store.ids <= RunStore(r).ids
    ensures RunStore(r).newPosts == store.newPosts + |RunStore(r).ids - store.ids|
    ensures r.Exhausted? ==> r.final.cursor.None?
  {
    CrawlFrom(RecentPosts(page.nodes), page.endCursor, GetQueryIds(scripts, fetch),
              probe, feeds, store, excluded, fuel)
  }

  /** `extract_recent_tag` with the corrected query-id selection. */
  function ExtractRecentTagCorrected(
    page: TagPage, scripts: seq<Script>, fetch: string -> string,
    probe: string -> Response, feeds: string -> Feed,
    store: Store, excluded: set<string>, fuel: nat): (r: Run)
    ensures store.ids <= RunStore(r).ids
    ensures RunStore(r).newPosts == store.newPosts + |RunStore(r).ids - store.ids|
    ensures r.Exhausted? ==> r.final.cursor.None?
  {
    CrawlFromCorrected(RecentPosts(page.nodes), page.endCursor, GetQueryIds(scripts, fetch),
                       probe, feeds, store, excluded, fuel)
  }

  /** One first-page node that does not normalise aborts the crawl with its
      exception, before anything is saved and before the loop starts. */
  lemma FirstPageErrorAborts(
    page: TagPage, scripts: seq<Script>, fetch: string -> string,
    probe: string -> Response, feeds: string -> Feed,
    store: Store, excluded: set<string>, fuel: nat, i: nat)
    requires i < |page.nodes| && FlatPost(page.nodes[i]).Err?
    ensures ExtractRecentTag(page, scripts, fetch, probe, feeds, store, excluded, fuel).Aborted?
    ensures RunStore(ExtractRecentTag(page, scripts, fetch, probe, feeds, store, excluded, fuel)) == store
  {
  }

  /** The first page ignores the exclusion set: every first-page post is stored
      however its hashtags compare with `excluded`. */
  lemma FirstPageIgnoresExclusions(
    page: TagPage, scripts: seq<Script>, fetch: string -> string,
    probe: string -> Response, feeds: string -> Feed,
    store: Store, excluded: set<string>, fuel: nat)
    ensures RecentPosts(page.nodes).Ok? ==>
              forall i :: 0 <= i < |page.nodes| ==>
                FlatPost(page.nodes[i]).value.postId
                  in RunStore(ExtractRecentTag(page, scripts, fetch, probe, feeds, store, excluded, fuel)).ids
  {
    if RecentPosts(page.nodes).Ok? {
      var posts := RecentPosts(page.nodes).value;
      forall i | 0 <= i < |page.nodes|
        ensures FlatPost(page.nodes[i]).value.postId in Elems(PostIds(posts))
      {
        assert PostIds(posts)[i] == FlatPost(page.nodes[i]).value.postId;
      }
    }
  }

  /** A landing page without commons scripts yields no candidate query id: as
      written, the run saves the first page and then raises
      `UnboundLocalError`, even when that page had no further cursor, since the
      id is chosen before the loop. */
  lemma NoCommonsScriptRaises(
    page: TagPage, fetch: string -> string,
    probe: string -> Response, feeds: string -> Feed,
    store: Store, excluded: set<string>, fuel: nat)
    requires RecentPosts(page.nodes).Ok?
    ensures ExtractRecentTag(page, [], fetch, probe, feeds, store, excluded, fuel)
              == Aborted(UnboundLocalError, SaveResults(store, RecentPosts(page.nodes).value))
  {
  }

  /** With the corrected selection the same run logs and exits with status 1. */
  lemma NoCommonsScriptExitsCorrected(
    page: TagPage, fetch: string -> string,
    probe: string -> Response, feeds: string -> Feed,
    store: Store, excluded: set<string>, fuel: nat)
    requires RecentPosts(page.nodes).Ok?
    ensures ExtractRecentTagCorrected(page, [], fetch, probe, feeds, store, excluded, fuel)
              == Aborted(SystemExit(1), SaveResults(store, RecentPosts(page.nodes).value))
  {
  }
}

=== FILE: hashtags.dfy ===
/** Hashtag extraction from a caption: `caption.split()`, keep the tokens that
    start with `#`, and delete every run of non-word characters from each kept
    token. */
module Hashtags {
  import opened Values

  /** Python's `str.isspace`, which is what `str.split()` with no argument splits on. */
  predicate IsSpace(c: char)
  {
    var n := c as int;
    || n == 0x20
    || 0x09 <= n <= 0x0D
    || 0x1C <= n <= 0x1F
    || n == 0x85
    || n == 0xA0
    || n == 0x1680
    || 0x2000 <= n <= 0x200A
    || n == 0x2028
    || n == 0x2029
    || n == 0x202F
    || n == 0x205F
    || n == 0x3000
  }

  /** Whitespace is never a word character and never the `#` that marks a
      hashtag token. */
  lemma SpaceIsNotWord(c: char)
    ensures IsSpace(c) ==> !IsWordChar(c) && c != '#'
  {
  }

  /** A regular-expression word character, restricted to ASCII: `[A-Za-z0-9_]`. */
  predicate IsWordChar(c: char)
  {
    || 'a' <= c <= 'z'
    || 'A' <= c <= 'Z'
    || '0' <= c <= '9'
    || c == '_'
  }

  predicate NoSpace(w: string)
  {
    forall i :: 0 <= i < |w| ==> !IsSpace(w[i])
  }

  predicate AllWordChars(w: string)
  {
    forall i :: 0 <= i < |w| ==> IsWordChar(w[i])
  }

  /** A token as `str.split()` produces it: non-empty and free of whitespace. */
  predicate IsToken(w: string)
  {
    w != [] && NoSpace(w)
  }

  /** The longest whitespace-free prefix of `s`. */
  function Token(s: string): (w: string)
    ensures |w| <= |s| && w == s[..|w|]
    ensures NoSpace(w)
    ensures |w| < |s| ==> IsSpace(s[|w|])
  {
    if s == [] || IsSpace(s[0]) then []
    else [s[0]] + Token(s[1..])
  }

  /** Python's `s.split()`: the maximal runs of non-whitespace characters, in order. */
  function Split(s: string): (ws: seq<string>)
    ensures forall i :: 0 <= i < |ws| ==> IsToken(ws[i])
    decreases |s|
  {
    if s == [] then []
    else if IsSpace(s[0]) then Split(s[1..])
    else
      var w := Token(s);
      [w] + Split(s[|w|..])
  }

  function Concat(ws: seq<string>): string
  {
    if ws == [] then [] else ws[0] + Concat(ws[1..])
  }

  /** The characters of `s` that are not whitespace, in order. */
  function NonSpace(s: string): string
  {
    if s == [] then []
    else (if IsSpace(s[0]) then [] else [s[0]]) + NonSpace(s[1..])
  }

  /** Joins tokens with one blank between consecutive ones (`" ".join(ws)`). */
  function JoinBlank(ws: seq<string>): string
  {
    if ws == [] then []
    else if |ws| == 1 then ws[0]
    else ws[0] + " " + JoinBlank(ws[1..])
  }

  lemma {:induction false} NonSpaceAppend(a: string, b: string)
    ensures NonSpace(a + b) == NonSpace(a) + NonSpace(b)
    decreases |a|
  {
    if a == [] {
      assert a + b == b;
    } else {
      assert (a + b)[1..] == a[1..] + b;
      NonSpaceAppend(a[1..], b);
    }
  }

  lemma {:induction false} NonSpaceOfNoSpace(w: string)
    requires NoSpace(w)
    ensures NonSpace(w) == w
    decreases |w|
  {
    if w != [] {
      NonSpaceOfNoSpace(w[1..]);
    }
  }

  /** Splitting loses exactly the whitespace: the tokens, concatenated, are the
      caption with every whitespace character removed. */
  lemma {:induction false} SplitKeepsNonSpace(s: string)
    ensures Concat(Split(s)) == NonSpace(s)
    decreases |s|
  {
    if s == [] {
    } else if IsSpace(s[0]) {
      SplitKeepsNonSpace(s[1..]);
    } else {
      var w := Token(s);
      assert s == w + s[|w|..];
      SplitKeepsNonSpace(s[|w|..]);
      NonSpaceAppend(w, s[|w|..]);
      NonSpaceOfNoSpace(w);
    }
  }

  lemma {:induction false} TokenOfPrefix(w: string, rest: string)
    requires NoSpace(w)
    requires rest == [] || IsSpace(rest[0])
    ensures Token(w + rest) == w
    decreases |w|
  {
    if w == [] {
      assert w + rest == rest;
    } else {
      assert (w + rest)[1..] == w[1..] + rest;
      TokenOfPrefix(w[1..], rest);
    }
  }

  /** `split` undoes `join`: blank-joined tokens split back into the same tokens. */
  lemma {:induction false} SplitJoinBlank(ws: seq<string>)
    requires forall i :: 0 <= i < |ws| ==> IsToken(ws[i])
    ensures Split(JoinBlank(ws)) == ws
    decreases |ws|
  {
    if ws == [] {
    } else if |ws| == 1 {
      TokenOfPrefix(ws[0], []);
      assert ws[0] + [] == ws[0];
      assert ws[0][|ws[0]|..] == [];
    } else {
      var w := ws[0];
      var tail := JoinBlank(ws[1..]);
      var s := w + " " + tail;
      assert s == w + (" " + tail);
      TokenOfPrefix(w, " " + tail);
      assert s[|w|..] == " " + tail;
      assert (" " + tail)[1..] == tail;
      SplitJoinBlank(ws[1..]);
    }
  }

  predicate AllSpace(sp: string)
  {
    forall i :: 0 <= i < |sp| ==> IsSpace(sp[i])
  }

  /** Leading whitespace produces no token. */
  lemma {:induction false} SplitSkipsSpace(sp: string, s: string)
    requires AllSpace(sp)
    ensures Split(sp + s) == Split(s)
    decreases |sp|
  {
    if sp == [] {
      assert sp + s == s;
    } else {
      assert (sp + s)[0] == sp[0];
      assert (sp + s)[1..] == sp[1..] + s;
      SplitSkipsSpace(sp[1..], s);
    }
  }

  /** A token followed by whitespace, or by nothing, is split off whole. */
  lemma SplitToken(w: string, rest: string)
    requires IsToken(w)
    requires rest == [] || IsSpace(rest[0])
    ensures Split(w + rest) == [w] + Split(rest)
  {
    TokenOfPrefix(w, rest);
    assert (w + rest)[0] == w[0];
    assert (w + rest)[|w|..] == rest;
  }

  /** The string `seps[0] + ws[0] + seps[1] + ... + ws[n-1] + seps[n]`. */
  function Interleave(ws: seq<string>, seps: seq<string>): string
    requires |seps| == |ws| + 1
  {
    if ws == [] then seps[0] else seps[0] + ws[0] + Interleave(ws[1..], seps[1..])
  }

  /** Separators for `n` tokens: whitespace runs, non-empty between two tokens;
      the runs before the first token and after the last may be empty. */
  predicate Separators(seps: seq<string>, n: nat)
  {
    && |seps| == n + 1
    && (forall i :: 0 <= i < |seps| ==> AllSpace(seps[i]))
    && (forall i :: 0 < i < n ==> seps[i] != [])
  }

  /** `split` recovers the tokens whatever whitespace separates them: tabs,
      newlines and runs of several characters as well as single blanks, with
      any leading and trailing whitespace. */
  lemma {:induction false} SplitInterleave(ws: seq<string>, seps: seq<string>)
    requires forall i :: 0 <= i < |ws| ==> IsToken(ws[i])
    requires Separators(seps, |ws|)
    ensures Split(Interleave(ws, seps)) == ws
    decreases |ws|
  {
    if ws == [] {
      SplitSkipsSpace(seps[0], []);
      assert seps[0] + [] == seps[0];
    } else {
      var tail := seps[1..];
      assert Separators(tail, |ws| - 1) by {
        forall i | 0 <= i < |tail|
          ensures AllSpace(tail[i])
        {
          assert tail[i] == seps[i + 1];
        }
        forall i | 0 < i < |ws| - 1
          ensures tail[i] != []
        {
          assert tail[i] == seps[i + 1];
        }
      }
      var rest := Interleave(ws[1..], tail);
      assert rest == [] || IsSpace(rest[0]) by {
        if |ws| > 1 {
          assert seps[1] != [];
          assert rest[0] == seps[1][0];
        } else {
          assert rest == seps[1];
        }
      }
      SplitInterleave(ws[1..], tail);
      SplitToken(ws[0], rest);
      assert Interleave(ws, seps) == seps[0] + (ws[0] + rest);
      SplitSkipsSpace(seps[0], ws[0] + rest);
    }
  }

  /** A whitespace character in front of a decomposed string joins the first separator. */
  lemma InterleaveSpace(c: char, ws: seq<string>, sp: seq<string>)
    requires IsSpace(c) && Separators(sp, |ws|)
    ensures Separators([[c] + sp[0]] + sp[1..], |ws|)
    ensures Interleave(ws, [[c] + sp[0]] + sp[1..]) == [c] + Interleave(ws, sp)
  {
    var seps := [[c] + sp[0]] + sp[1..];
    assert seps[1..] == sp[1..];
    forall i | 0 <= i < |seps|
      ensures AllSpace(seps[i])
    {
      if i > 0 {
        assert seps[i] == sp[i];
      }
    }
    forall i | 0 < i < |ws|
      ensures seps[i] != []
    {
      assert seps[i] == sp[i];
    }
    if ws != [] {
      var x := ws[0] + Interleave(ws[1..], sp[1..]);
      assert Interleave(ws, sp) == sp[0] + x;
      assert Interleave(ws, seps) == ([c] + sp[0]) + x;
      assert ([c] + sp[0]) + x == [c] + (sp[0] + x);
    }
  }

  /** A token in front of a decomposed string that starts with whitespace (or
      is empty) becomes the first token, after an empty separator. */
  lemma InterleaveToken(w: string, ws: seq<string>, sp: seq<string>)
    requires IsToken(w) && Separators(sp, |ws|)
    requires forall i :: 0 <= i < |ws| ==> IsToken(ws[i])
    requires var rest := Interleave(ws, sp); rest == [] || IsSpace(rest[0])
    ensures Separators([[]] + sp, |ws| + 1)
    ensures Interleave([w] + ws, [[]] + sp) == w + Interleave(ws, sp)
  {
    var seps := [[]] + sp;
    assert ([w] + ws)[1..] == ws;
    assert seps[1..] == sp;
    if ws != [] && sp[0] == [] {
      assert false;
    }
    forall i | 0 <= i < |seps|
      ensures AllSpace(seps[i])
    {
      if i > 0 {
        assert seps[i] == sp[i - 1];
      }
    }
    forall i | 0 < i < |ws| + 1
      ensures seps[i] != []
    {
      assert seps[i] == sp[i - 1];
    }
    assert Interleave([w] + ws, seps) == [] + w + Interleave(ws, sp);
  }

  /** Conversely every string is its own tokens interleaved with whitespace
      separators, so together with `SplitInterleave` this pins `split` down on
      every input. */
  lemma {:induction false} SplitDecomposes(s: string)
    ensures exists seps :: Separators(seps, |Split(s)|) && Interleave(Split(s), seps) == s
    decreases |s|
  {
    if s == [] {
      var seps: seq<string> := [[]];
      assert Split(s) == [];
      assert Separators(seps, 0) && Interleave([], seps) == s;
    } else if IsSpace(s[0]) {
      SplitDecomposes(s[1..]);
      var ws := Split(s[1..]);
      var sp :| Separators(sp, |ws|) && Interleave(ws, sp) == s[1..];
      InterleaveSpace(s[0], ws, sp);
      assert [s[0]] + s[1..] == s;
      var seps := [[s[0]] + sp[0]] + sp[1..];
      assert Separators(seps, |Split(s)|) && Interleave(Split(s), seps) == s;
    } else {
      var w := Token(s);
      var rest := s[|w|..];
      assert s == w + rest;
      SplitDecomposes(rest);
      var ws := Split(rest);
      var sp :| Separators(sp, |ws|) && Interleave(ws, sp) == rest;
      InterleaveToken(w, ws, sp);
      var seps := [[]] + sp;
      assert Separators(seps, |Split(s)|) && Interleave(Split(s), seps) == s;
    }
  }

  /** Deleting every run of non-word characters: what is left are the word
      characters of `w`, in order. */
  function StripNonWord(w: string): (r: string)
    ensures AllWordChars(r)
    ensures |r| <= |w|
  {
    if w == [] then []
    else (if IsWordChar(w[0]) then [w[0]] else []) + StripNonWord(w[1..])
  }

  lemma {:induction false} StripNonWordAppend(a: string, b: string)
    ensures StripNonWord(a + b) == StripNonWord(a) + StripNonWord(b)
    decreases |a|
  {
    if a == [] {
      assert a + b == b;
    } else {
      assert (a + b)[0] == a[0];
      assert (a + b)[1..] == a[1..] + b;
      StripNonWordAppend(a[1..], b);
      var h := if IsWordChar(a[0]) then [a[0]] else [];
      calc {
        StripNonWord(a + b);
        h + StripNonWord(a[1..] + b);
        h + (StripNonWord(a[1..]) + StripNonWord(b));
        (h + StripNonWord(a[1..])) + StripNonWord(b);
      }
    }
  }

  /** A token made of word characters only is left as it is. */
  lemma {:induction false} StripNonWordKeepsWords(w: string)
    requires AllWordChars(w)
    ensures StripNonWord(w) == w
    decreases |w|
  {
    if w != [] {
      StripNonWordKeepsWords(w[1..]);
    }
  }

  /** A single non-word character is deleted; with `StripNonWordAppend` and
      `StripNonWordKeepsWords` this fixes the result on every string. */
  lemma StripNonWordDropsNonWord(c: char)
    requires !IsWordChar(c)
    ensures StripNonWord([c]) == []
  {
  }

  /** Each word character survives as often as it occurs, and no other
      character survives at all. */
  lemma {:induction false} StripNonWordCounts(w: string, c: char)
    ensures multiset(StripNonWord(w))[c] == if IsWordChar(c) then multiset(w)[c] else 0
    decreases |w|
  {
    if w == [] {
    } else {
      assert w == [w[0]] + w[1..];
      StripNonWordCounts(w[1..], c);
    }
  }

  /** Deleting non-word characters a second time changes nothing. */
  lemma StripNonWordIdempotent(w: string)
    ensures StripNonWord(StripNonWord(w)) == StripNonWord(w)
  {
    StripNonWordKeepsWords(StripNonWord(w));
  }

  predicate StartsWithHash(w: string)
  {
    |w| > 0 && w[0] == '#'
  }

  /** The tokens that start with `#`, in order, duplicates kept. */
  function HashTokens(ws: seq<string>): (hs: seq<string>)
    ensures |hs| <= |ws|
    ensures forall i :: 0 <= i < |hs| ==> StartsWithHash(hs[i])
  {
    if ws == [] then []
    else (if StartsWithHash(ws[0]) then [ws[0]] else []) + HashTokens(ws[1..])
  }

  /** The filter keeps exactly the `#` tokens, each as often as it occurs. */
  lemma {:induction false} HashTokensKeepsHashTokens(ws: seq<string>, t: string)
    ensures t in HashTokens(ws) <==> t in ws && StartsWithHash(t)
    ensures StartsWithHash(t) ==> multiset(HashTokens(ws))[t] == multiset(ws)[t]
    decreases |ws|
  {
    if ws != [] {
      HashTokensKeepsHashTokens(ws[1..], t);
      assert ws == [ws[0]] + ws[1..];
    }
  }

  /** The tag list built from the tokens: one entry per token that starts with
      `#`, in token order, each that token with its non-word characters (the `#`
      among them) deleted. */
  function TagsOf(ws: seq<string>): (tags: seq<string>)
    ensures |tags| == |HashTokens(ws)|
    ensures forall i :: 0 <= i < |tags| ==> tags[i] == StripNonWord(HashTokens(ws)[i])
    ensures forall i :: 0 <= i < |tags| ==> AllWordChars(tags[i]) && !StartsWithHash(tags[i])
  {
    if ws == [] then []
    else
      var rest := TagsOf(ws[1..]);
      var hs := HashTokens(ws[1..]);
      if StartsWithHash(ws[0]) then
        assert HashTokens(ws) == [ws[0]] + hs;
        [StripNonWord(ws[0])] + rest
      else
        assert HashTokens(ws) == hs;
        rest
  }

  /** Tags of consecutive token lists are the tags of each list, in order. */
  lemma {:induction false} TagsOfAppend(a: seq<string>, b: seq<string>)
    ensures TagsOf(a + b) == TagsOf(a) + TagsOf(b)
    decreases |a|
  {
    if a == [] {
      assert a + b == b;
    } else {
      assert (a + b)[1..] == a[1..] + b;
      TagsOfAppend(a[1..], b);
    }
  }

  /** The hashtags of a post's caption; a missing caption has none. */
  function HashTags(caption: Option<string>): (tags: seq<string>)
    ensures caption.None? ==> tags == []
    ensures caption.Some? ==> |tags| == |HashTokens(Split(caption.value))|
    ensures caption.Some? ==> forall i :: 0 <= i < |tags| ==> tags[i] == StripNonWord(HashTokens(Split(caption.value))[i])
    ensures forall i :: 0 <= i < |tags| ==> AllWordChars(tags[i]) && !StartsWithHash(tags[i])
  {
    match caption
    case None => []
    case Some(c) => TagsOf(Split(c))
  }

  /** For a caption written as blank-separated tokens, the hashtags are those of
      the tokens themselves: the caption's own token order is kept. */
  lemma HashTagsOfJoined(ws: seq<string>)
    requires forall i :: 0 <= i < |ws| ==> IsToken(ws[i])
    ensures HashTags(Some(JoinBlank(ws))) == TagsOf(ws)
  {
    SplitJoinBlank(ws);
  }

  /** For a caption written as tokens separated by any whitespace runs, with
      any leading and trailing whitespace, the hashtags are those of the tokens. */
  lemma HashTagsOfInterleaved(ws: seq<string>, seps: seq<string>)
    requires forall i :: 0 <= i < |ws| ==> IsToken(ws[i])
    requires Separators(seps, |ws|)
    ensures HashTags(Some(Interleave(ws, seps))) == TagsOf(ws)
  {
    SplitInterleave(ws, seps);
  }

  /** A caption that is one hashtag, `#` followed by word characters, is a
      single token (whitespace is never a word character) and gives that tag. */
  lemma HashTagOfSingleWord(w: string)
    requires AllWordChars(w)
    ensures Split("#" + w) == ["#" + w]
    ensures HashTags(Some("#" + w)) == [w]
  {
    var t := "#" + w;
    forall i | 0 <= i < |t|
      ensures !IsSpace(t[i])
    {
      SpaceIsNotWord(t[i]);
      if i > 0 {
        assert t[i] == w[i - 1];
      }
    }
    SplitJoinBlank([t]);
    assert JoinBlank([t]) == t;
    StripOfHashWord(w);
    assert HashTokens([t]) == [t];
  }

  /** A caption made of two captions separated by whitespace has the first's
      hashtags followed by the second's, duplicates included. */
  lemma HashTagsOfTwoCaptions(a: seq<string>, b: seq<string>)
    requires forall i :: 0 <= i < |a| ==> IsToken(a[i])
    requires forall i :: 0 <= i < |b| ==> IsToken(b[i])
    ensures HashTags(Some(JoinBlank(a + b))) == HashTags(Some(JoinBlank(a))) + HashTags(Some(JoinBlank(b)))
  {
    SplitJoinBlank(a + b);
    SplitJoinBlank(a);
    SplitJoinBlank(b);
    TagsOfAppend(a, b);
  }

  /** The token `#!!` yields an empty hashtag rather than no hashtag. */
  lemma HashTagOfPunctuationOnly()
    ensures HashTags(Some("#!!")) == [""]
  {
    var w := "#!!";
    TokenOfPrefix(w, []);
    assert w + [] == w;
    assert w[|w|..] == [];
    assert Split(w) == [w];
    assert StripNonWord(w) == "";
  }

  /** Example caption: `"Great day! #sun #fun2023 #a-b"` gives `sun`, `fun2023`, `ab`. */
  lemma HashTagsExample()
    ensures HashTags(Some("Great day! #sun #fun2023 #a-b")) == ["sun", "fun2023", "ab"]
  {
    var ws := ["Great", "day!", "#sun", "#fun2023", "#a-b"];
    ExampleIsTokens(ws);
    ExampleJoin(ws);
    HashTagsOfJoined(ws);
    ExampleTags(ws);
  }

  lemma ExampleIsTokens(ws: seq<string>)
    requires ws == ["Great", "day!", "#sun", "#fun2023", "#a-b"]
    ensures forall i :: 0 <= i < |ws| ==> IsToken(ws[i])
  {
    assert IsToken(ws[0]);
    assert IsToken(ws[1]);
    assert IsToken(ws[2]);
    assert IsToken(ws[3]);
    assert IsToken(ws[4]);
  }

  lemma ExampleJoin(ws: seq<string>)
    requires ws == ["Great", "day!", "#sun", "#fun2023", "#a-b"]
    ensures JoinBlank(ws) == "Great day! #sun #fun2023 #a-b"
  {
    var t1 := ["day!", "#sun", "#fun2023", "#a-b"];
    assert ws == ["Great"] + t1;
    ExampleJoinTail(t1);
    JoinBlankCons("Great", t1);
  }

  lemma ExampleJoinTail(t1: seq<string>)
    requires t1 == ["day!", "#sun", "#fun2023", "#a-b"]
    ensures JoinBlank(t1) == "day! #sun #fun2023 #a-b"
  {
    var t3 := ["#fun2023", "#a-b"];
    var t2 := ["#sun"] + t3;
    assert t1 == ["day!"] + t2;
    JoinBlankCons("#fun2023", ["#a-b"]);
    assert ["#fun2023"] + ["#a-b"] == t3;
    JoinBlankCons("#sun", t3);
    JoinBlankCons("day!", t2);
  }

  lemma JoinBlankCons(w: string, rest: seq<string>)
    requires rest != []
    ensures JoinBlank([w] + rest) == w + " " + JoinBlank(rest)
  {
    assert ([w] + rest)[0] == w;
    assert ([w] + rest)[1..] == rest;
  }

  lemma ExampleTags(ws: seq<string>)
    requires ws == ["Great", "day!", "#sun", "#fun2023", "#a-b"]
    ensures TagsOf(ws) == ["sun", "fun2023", "ab"]
  {
    var t2 := ["#sun", "#fun2023", "#a-b"];
    var t1 := ["day!"] + t2;
    assert ws == ["Great"] + t1;
    ExampleHashTail(t2);
    TagsOfCons("day!", t2);
    TagsOfCons("Great", t1);
  }

  lemma ExampleHashTail(t2: seq<string>)
    requires t2 == ["#sun", "#fun2023", "#a-b"]
    ensures TagsOf(t2) == ["sun", "fun2023", "ab"]
  {
    var t3 := ["#fun2023", "#a-b"];
    assert t2 == ["#sun"] + t3;
    ExampleLastTwo(t3);
    TagsOfCons("#sun", t3);
    StripSun();
    assert TagsOf(t2) == ["sun"] + ["fun2023", "ab"];
  }

  lemma StripSun()
    ensures StripNonWord("#sun") == "sun"
  {
    var f := "sun";
    assert AllWordChars(f);
    StripOfHashWord(f);
  }

  lemma ExampleLastTwo(t3: seq<string>)
    requires t3 == ["#fun2023", "#a-b"]
    ensures TagsOf(t3) == ["fun2023", "ab"]
  {
    var t4: seq<string> := ["#a-b"];
    assert t3 == ["#fun2023"] + t4;
    ExampleLast(t4);
    TagsOfCons("#fun2023", t4);
    StripFun();
  }

  lemma ExampleLast(t4: seq<string>)
    requires t4 == ["#a-b"]
    ensures TagsOf(t4) == ["ab"]
  {
    TagsOfCons("#a-b", []);
    assert ["#a-b"] + [] == t4;
    StripAB();
  }

  lemma TagsOfCons(t: string, rest: seq<string>)
    ensures TagsOf([t] + rest) == (if StartsWithHash(t) then [StripNonWord(t)] else []) + TagsOf(rest)
  {
    assert ([t] + rest)[0] == t;
    assert ([t] + rest)[1..] == rest;
  }

  lemma StripFun()
    ensures StripNonWord("#fun2023") == "fun2023"
  {
    var f := "fun2023";
    assert AllWordChars(f);
    StripOfHashWord(f);
  }

  lemma StripAB()
    ensures StripNonWord("#a-b") == "ab"
  {
    StripNonWordAppend("#a", "-b");
    assert "#a" + "-b" == "#a-b";
    StripOfHashWord("a");
    StripNonWordAppend("-", "b");
    StripNonWordKeepsWords("b");
  }

  lemma StripOfHashWord(w: string)
    requires AllWordChars(w)
    ensures StripNonWord("#" + w) == w
  {
    StripNonWordAppend("#", w);
    StripNonWordKeepsWords(w);
  }
}

=== FILE: normalize.dfy ===
/** Post normalisation: the two node shapes of the feed (flat first-page nodes and
    nested GraphQL edges), the owner record both share, and the hashtag exclusion
    filter applied to the nested batch. */
module Normalize {
  import opened Values
  import opened Hashtags

  /** The `user` record built by `extract_owner_details`. `username` is Python's
      `None` (JSON `Null`) when the owner has no `username` key. */
  datatype User = User(userId: Json, username: Json, isPrivate: bool)

  datatype Dimensions = Dimensions(width: Json, height: Json)

  /** The post dict handed to the sink. Only nested nodes carry `dimensions`.
      `comments` and `likes` are the `count` values of a flat node and the whole
      edge objects of a nested node, as the code copies them. */
  datatype Post = Post(
    dimensions: Option<Dimensions>,
    user: User,
    postId: Json,
    code: Json,
    caption: Option<string>,
    hashTags: seq<string>,
    comments: Json,
    likes: Json,
    imgSmall: Json,
    imgLarge: Json,
    postedAt: Json,
    isVideo: Json)

  /** `extract_owner_details`: `userId` is `owner['id']` (which must exist),
      `username` is present or `None`, and `isPrivate` records only whether the
      `is_private` key is there. */
  function OwnerDetails(owner: Json): (r: Result<User>)
    ensures r.Ok? <==> owner.Obj? && "id" in owner.fields
    ensures !owner.Obj? ==> r == Err(TypeError)
    ensures owner.Obj? && "id" !in owner.fields ==> r == Err(KeyError)
    ensures r.Ok? ==> r.value.userId == owner.fields["id"]
    ensures r.Ok? ==> (r.value.isPrivate <==> "is_private" in owner.fields)
    ensures r.Ok? && "username" !in owner.fields ==> r.value.username == Null
    ensures r.Ok? && "username" in owner.fields ==> r.value.username == owner.fields["username"]
  {
    var id :- Subscript(owner, "id");
    Ok(User(id, GetOrNone(owner, "username"), "is_private" in owner.fields))
  }

  /** `isPrivate` is true for `is_private: false` just as for `is_private: true`:
      only the key's presence matters, never its value. */
  lemma OwnerPrivacyIgnoresValue(m: map<string, Json>, v: Json, w: Json)
    requires "id" in m
    ensures OwnerDetails(Obj(m["is_private" := v])) == OwnerDetails(Obj(m["is_private" := w]))
    ensures OwnerDetails(Obj(m["is_private" := v])).value.isPrivate
  {
  }

  /** A caption and the hashtags derived from it. */
  datatype Captioned = Captioned(caption: Option<string>, hashTags: seq<string>)

  /** The `if post['caption'] is not None: ... .split()` step: `None` has no
      hashtags, a string is split, and anything else has no `split` method. */
  function CaptionTags(caption: Json): (r: Result<Captioned>)
    ensures r.Ok? <==> caption.Null? || caption.Str?
    ensures caption.Null? ==> r == Ok(Captioned(None, []))
    ensures caption.Str? ==> r == Ok(Captioned(Some(caption.s), HashTags(Some(caption.s))))
    ensures !(caption.Null? || caption.Str?) ==> r == Err(AttributeError)
  {
    match caption
    case Null => Ok(Captioned(None, []))
    case Str(s) => Ok(Captioned(Some(s), HashTags(Some(s))))
    case _ => Err(AttributeError)
  }

  /** `extract_recent_instagram_post`: a flat first-page node. Keys are read in
      the code's order, so the first missing key (or wrong-typed value) decides
      the exception; a missing `caption` (or a `null` one) means no hashtags. */
  function FlatPost(node: Json): (r: Result<Post>)
    ensures !node.Obj? ==> r == Err(TypeError)
    ensures node.Obj? && "owner" !in node.fields ==> r == Err(KeyError)
    ensures r.Ok? ==> FlatShape(node)
    ensures FlatShape(node) && FlatTyped(node) ==> r.Ok?
    ensures r.Ok? ==> FlatFields(node, r.value)
  {
    var owner :- Subscript(node, "owner");
    var user :- OwnerDetails(owner);
    var id :- Subscript(node, "id");
    var code :- Subscript(node, "code");
    var ct :- CaptionTags(GetOrNone(node, "caption"));
    var commentsObj :- Subscript(node, "comments");
    var comments :- Subscript(commentsObj, "count");
    var likesObj :- Subscript(node, "likes");
    var likes :- Subscript(likesObj, "count");
    var small :- Subscript(node, "thumbnail_src");
    var large :- Subscript(node, "display_src");
    var date :- Subscript(node, "date");
    var video :- Subscript(node, "is_video");
    Ok(Post(None, user, id, code, ct.caption, ct.hashTags, comments, likes, small, large, date, video))
  }

  predicate HasKey(j: Json, k: string)
  {
    j.Obj? && k in j.fields
  }

  /** Every key a flat node must carry, with the containers they sit in. */
  predicate FlatShape(node: Json)
  {
    && HasKey(node, "owner") && HasKey(node.fields["owner"], "id")
    && HasKey(node, "id") && HasKey(node, "code")
    && HasKey(node, "comments") && HasKey(node.fields["comments"], "count")
    && HasKey(node, "likes") && HasKey(node.fields["likes"], "count")
    && HasKey(node, "thumbnail_src") && HasKey(node, "display_src")
    && HasKey(node, "date") && HasKey(node, "is_video")
  }

  /** The one value of a flat node whose type matters: the caption, when present. */
  predicate FlatTyped(node: Json)
    requires node.Obj?
  {
    var c := GetOrNone(node, "caption");
    c.Null? || c.Str?
  }

  /** The field mapping of a flat node onto a post. */
  predicate FlatFields(node: Json, p: Post)
    requires FlatShape(node)
  {
    var m := node.fields;
    var c := GetOrNone(node, "caption");
    && p.dimensions == None
    && p.user == OwnerDetails(m["owner"]).value
    && p.postId == m["id"]
    && p.code == m["code"]
    && p.caption == (if c.Str? then Some(c.s) else None)
    && p.hashTags == HashTags(p.caption)
    && p.comments == m["comments"].fields["count"]
    && p.likes == m["likes"].fields["count"]
    && p.imgSmall == m["thumbnail_src"]
    && p.imgLarge == m["display_src"]
    && p.postedAt == m["date"]
    && p.isVideo == m["is_video"]
  }

  /** The containers of a flat node that the code indexes into are dicts
      whenever they are present. */
  predicate FlatDicts(node: Json)
  {
    && node.Obj?
    && ("owner" in node.fields ==> node.fields["owner"].Obj?)
    && ("comments" in node.fields ==> node.fields["comments"].Obj?)
    && ("likes" in node.fields ==> node.fields["likes"].Obj?)
  }

  /** A flat node with dict containers and a usable caption that lacks some
      key raises `KeyError`. */
  lemma FlatMissingKeyRaisesKeyError(node: Json)
    requires FlatDicts(node) && FlatTyped(node) && !FlatShape(node)
    ensures FlatPost(node) == Err(KeyError)
  {
  }

  /** A flat node with every key whose caption is neither a string nor `null`
      raises `AttributeError` from the caption's `split`. */
  /** A flat node whose `owner` is present but not a dict raises `TypeError`
      when the owner's `id` is read. */
  lemma FlatNonDictOwnerRaisesTypeError(node: Json)
    requires HasKey(node, "owner") && !node.fields["owner"].Obj?
    ensures FlatPost(node) == Err(TypeError)
  {
  }

  lemma FlatCaptionRaisesAttributeError(node: Json)
    requires FlatShape(node) && !FlatTyped(node)
    ensures FlatPost(node) == Err(AttributeError)
  {
  }

  /** The caption of a nested node: `edges[0]['node']['text']` when the caption
      edge list is non-empty, otherwise `None`. The length test runs first. */
  function EdgeCaption(edges: Json): (r: Result<Json>)
    ensures edges.Arr? && edges.items == [] ==> r == Ok(Null)
    ensures Len(edges) == Ok(0) ==> r == Ok(Null)
    ensures (edges.Arr? && edges.items != [] && HasKey(edges.items[0], "node")
             && HasKey(edges.items[0].fields["node"], "text"))
            ==> r == Ok(edges.items[0].fields["node"].fields["text"])
    ensures edges.Obj? && edges.fields != map[] ==> r == Err(KeyError)
    ensures Len(edges).Err? ==> r == Err(TypeError)
  {
    var n :- Len(edges);
    if n > 0 then
      var first :- First(edges);
      var edgeNode :- Subscript(first, "node");
      Subscript(edgeNode, "text")
    else
      Ok(Null)
  }

  /** One nested node of `extract_instagram_posts`, up to (not including) the
      exclusion test. */
  function NestedPost(node: Json): (r: Result<Post>)
    ensures !node.Obj? ==> r == Err(TypeError)
    ensures node.Obj? && "node" !in node.fields ==> r == Err(KeyError)
    ensures r.Ok? ==> NestedShape(node)
    ensures NestedShape(node) && NestedTyped(node) ==> r.Ok?
    ensures r.Ok? ==> NestedFields(node, r.value)
  {
    var n :- Subscript(node, "node");
    var dims :- Subscript(n, "dimensions");
    var width :- Subscript(dims, "width");
    var height :- Subscript(dims, "height");
    var owner :- Subscript(n, "owner");
    var user :- OwnerDetails(owner);
    var id :- Subscript(n, "id");
    var code :- Subscript(n, "shortcode");
    var captionObj :- Subscript(n, "edge_media_to_caption");
    var edges :- Subscript(captionObj, "edges");
    var caption :- EdgeCaption(edges);
    var ct :- CaptionTags(caption);
    var comments :- Subscript(n, "edge_media_to_comment");
    var likes :- Subscript(n, "edge_liked_by");
    var small :- Subscript(n, "thumbnail_src");
    var large :- Subscript(n, "display_url");
    var taken :- Subscript(n, "taken_at_timestamp");
    var video :- Subscript(n, "is_video");
    Ok(Post(Some(Dimensions(width, height)), user, id, code, ct.caption, ct.hashTags,
            comments, likes, small, large, taken, video))
  }

  /** Every key a nested node must carry, with the containers they sit in. */
  predicate NestedShape(node: Json)
  {
    && HasKey(node, "node")
    && var n := node.fields["node"];
    && HasKey(n, "dimensions")
    && HasKey(n.fields["dimensions"], "width") && HasKey(n.fields["dimensions"], "height")
    && HasKey(n, "owner") && HasKey(n.fields["owner"], "id")
    && HasKey(n, "id") && HasKey(n, "shortcode")
    && HasKey(n, "edge_media_to_caption") && HasKey(n.fields["edge_media_to_caption"], "edges")
    && HasKey(n, "edge_media_to_comment") && HasKey(n, "edge_liked_by")
    && HasKey(n, "thumbnail_src") && HasKey(n, "display_url")
    && HasKey(n, "taken_at_timestamp") && HasKey(n, "is_video")
  }

  /** The caption edges are a list whose first edge, if any, carries a string
      or `null` text. */
  predicate NestedTyped(node: Json)
    requires NestedShape(node)
  {
    var edges := node.fields["node"].fields["edge_media_to_caption"].fields["edges"];
    && edges.Arr?
    && (edges.items != [] ==>
          && HasKey(edges.items[0], "node")
          && HasKey(edges.items[0].fields["node"], "text")
          && var t := edges.items[0].fields["node"].fields["text"];
          t.Null? || t.Str?)
  }

  /** The containers of a nested node that the code indexes into have the
      type the code expects whenever they are present: dicts along every key
      path, and a list of caption edges whose first edge is a dict. */
  predicate NestedDicts(node: Json)
  {
    && node.Obj?
    && ("node" in node.fields ==>
          var n := node.fields["node"];
          && n.Obj?
          && ("dimensions" in n.fields ==> n.fields["dimensions"].Obj?)
          && ("owner" in n.fields ==> n.fields["owner"].Obj?)
          && ("edge_media_to_caption" in n.fields ==>
                var c := n.fields["edge_media_to_caption"];
                && c.Obj?
                && ("edges" in c.fields ==>
                      var edges := c.fields["edges"];
                      && edges.Arr?
                      && (edges.items != [] ==>
                            && edges.items[0].Obj?
                            && ("node" in edges.items[0].fields ==> edges.items[0].fields["node"].Obj?)))))
  }

  /** The `text` of the first caption edge, when every key on its path is there. */
  function FirstCaptionText(node: Json): Option<Json>
  {
    if HasKey(node, "node") && HasKey(node.fields["node"], "edge_media_to_caption")
       && HasKey(node.fields["node"].fields["edge_media_to_caption"], "edges")
    then
      var edges := node.fields["node"].fields["edge_media_to_caption"].fields["edges"];
      if edges.Arr? && edges.items != [] && HasKey(edges.items[0], "node")
         && HasKey(edges.items[0].fields["node"], "text")
      then Some(edges.items[0].fields["node"].fields["text"])
      else None
    else None
  }

  /** A nested node with well-typed containers and a usable caption text (if
      any) that lacks some key raises `KeyError`, which the batch loop skips. */
  lemma NestedMissingKeyRaisesKeyError(node: Json)
    requires NestedDicts(node) && !NestedShape(node)
    requires FirstCaptionText(node).Some? ==> FirstCaptionText(node).value.Null? || FirstCaptionText(node).value.Str?
    ensures NestedPost(node) == Err(KeyError)
  {
  }

  /** A nested node with every key of `NestedShape` whose first caption edge
      lacks its `node`, or whose edge node lacks `text`, raises `KeyError` when
      the caption is read; the batch loop skips it. */
  lemma NestedCaptionEdgeRaisesKeyError(node: Json)
    requires NestedDicts(node) && NestedShape(node)
    requires var edges := node.fields["node"].fields["edge_media_to_caption"].fields["edges"];
      edges.Arr? && edges.items != [] &&
      !(HasKey(edges.items[0], "node") && HasKey(edges.items[0].fields["node"], "text"))
    ensures NestedPost(node) == Err(KeyError)
  {
  }

  /** A nested node with every key whose first caption text is neither a
      string nor `null` raises `AttributeError`, which aborts the batch. */
  lemma NestedCaptionRaisesAttributeError(node: Json)
    requires NestedDicts(node) && NestedShape(node)
    requires FirstCaptionText(node).Some? && !(FirstCaptionText(node).value.Null? || FirstCaptionText(node).value.Str?)
    ensures NestedPost(node) == Err(AttributeError)
  {
  }

  /** A nested node whose `node` is present but not a dict raises `TypeError`
      at the first subscript; the batch loop does not catch it. */
  lemma NestedNonDictNodeRaisesTypeError(node: Json)
    requires HasKey(node, "node") && !node.fields["node"].Obj?
    ensures NestedPost(node) == Err(TypeError)
  {
  }

  /** A nested node whose `dimensions` is present but not a dict raises
      `TypeError` when `width` is read. */
  lemma NestedNonDictDimensionsRaisesTypeError(node: Json)
    requires HasKey(node, "node") && HasKey(node.fields["node"], "dimensions")
    requires !node.fields["node"].fields["dimensions"].Obj?
    ensures NestedPost(node) == Err(TypeError)
  {
  }

  /** A nested node that gets as far as its `owner` and finds it present but
      not a dict raises `TypeError` when the owner's `id` is read. */
  lemma NestedNonDictOwnerRaisesTypeError(node: Json)
    requires HasKey(node, "node") && var n := node.fields["node"];
      && HasKey(n, "dimensions") && HasKey(n.fields["dimensions"], "width")
      && HasKey(n.fields["dimensions"], "height")
      && HasKey(n, "owner") && !n.fields["owner"].Obj?
    ensures NestedPost(node) == Err(TypeError)
  {
  }

  /** A nested node that gets as far as its caption and finds
      `edge_media_to_caption` present but not a dict raises `TypeError` when
      `edges` is read. */
  lemma NestedNonDictCaptionRaisesTypeError(node: Json)
    requires HasKey(node, "node") && var n := node.fields["node"];
      && HasKey(n, "dimensions") && HasKey(n.fields["dimensions"], "width")
      && HasKey(n.fields["dimensions"], "height")
      && HasKey(n, "owner") && HasKey(n.fields["owner"], "id")
      && HasKey(n, "id") && HasKey(n, "shortcode")
      && HasKey(n, "edge_media_to_caption") && !n.fields["edge_media_to_caption"].Obj?
    ensures NestedPost(node) == Err(TypeError)
  {
  }

  /** The field mapping of a nested node onto a post. */
  predicate NestedFields(node: Json, p: Post)
    requires NestedShape(node)
  {
    var n := node.fields["node"].fields;
    var dims := n["dimensions"].fields;
    var edges := n["edge_media_to_caption"].fields["edges"];
    && p.dimensions == Some(Dimensions(dims["width"], dims["height"]))
    && p.user == OwnerDetails(n["owner"]).value
    && p.postId == n["id"]
    && p.code == n["shortcode"]
    && (edges.Arr? ==> p.caption == NestedCaption(edges.items))
    && (Len(edges) == Ok(0) ==> p.caption == None)
    && p.hashTags == HashTags(p.caption)
    && p.comments == n["edge_media_to_comment"]
    && p.likes == n["edge_liked_by"]
    && p.imgSmall == n["thumbnail_src"]
    && p.imgLarge == n["display_url"]
    && p.postedAt == n["taken_at_timestamp"]
    && p.isVideo == n["is_video"]
  }

  /** The caption a list of caption edges stands for: the text of the first edge
      when it is a string, otherwise none. */
  function NestedCaption(edges: seq<Json>): Option<string>
  {
    if edges != [] && HasKey(edges[0], "node") && HasKey(edges[0].fields["node"], "text")
       && edges[0].fields["node"].fields["text"].Str?
    then Some(edges[0].fields["node"].fields["text"].s)
    else None
  }

  /** Whether the post carries at least one excluded hashtag: the code turns
      both collections into sets and tests them for a common element. */
  function Blocked(tags: seq<string>, excluded: set<string>): (b: bool)
    ensures b <==> exists i :: 0 <= i < |tags| && tags[i] in excluded
  {
    var tagSet := set t | t in tags;
    assert forall i :: 0 <= i < |tags| ==> tags[i] in tagSet;
    !(tagSet !! excluded)
  }

  /** A node outcome the batch loop survives: a post or a `KeyError`. */
  predicate Survivable(r: Result<Post>)
  {
    r.Ok? || r.error == KeyError
  }

  /** The post an outcome contributes to its batch: none when the node was
      malformed or carries an excluded hashtag. */
  function Kept(r: Result<Post>, excluded: set<string>): seq<Post>
  {
    if r.Ok? && !Blocked(r.value.hashTags, excluded) then [r.value] else []
  }

  /** The `for node in nodes: try ... except KeyError` loop of
      `extract_instagram_posts`, over the nodes' normalisation outcomes in order. */
  function FilterBatch(rs: seq<Result<Post>>, excluded: set<string>): (r: Result<seq<Post>>)
    ensures r.Ok? <==> forall i :: 0 <= i < |rs| ==> Survivable(rs[i])
    ensures r.Ok? ==> |r.value| <= |rs|
    ensures r.Ok? ==> forall k :: 0 <= k < |r.value| ==> !Blocked(r.value[k].hashTags, excluded)
  {
    if rs == [] then Ok([])
    else
      var rest := FilterBatch(rs[1..], excluded);
      assert forall i :: 1 <= i < |rs| ==> rs[1..][i - 1] == rs[i];
      if !Survivable(rs[0]) then Err(rs[0].error)
      else if rest.Err? then rest
      else Ok(Kept(rs[0], excluded) + rest.value)
  }

  /** An aborted batch raises the exception of the first outcome it cannot survive. */
  lemma {:induction false} FilterBatchFirstError(rs: seq<Result<Post>>, excluded: set<string>)
    requires FilterBatch(rs, excluded).Err?
    ensures exists i :: 0 <= i < |rs| && rs[i] == Err(FilterBatch(rs, excluded).error) && !Survivable(rs[i])
                        && forall j :: 0 <= j < i ==> Survivable(rs[j])
    decreases |rs|
  {
    if Survivable(rs[0]) {
      var tail := rs[1..];
      FilterBatchFirstError(tail, excluded);
      var e := FilterBatch(rs, excluded).error;
      var i :| 0 <= i < |tail| && tail[i] == Err(e) && !Survivable(tail[i])
               && forall j :: 0 <= j < i ==> Survivable(tail[j]);
      assert rs[i + 1] == tail[i];
      forall j | 0 <= j < i + 1
        ensures Survivable(rs[j])
      {
        if j > 0 {
          assert rs[j] == tail[j - 1];
        }
      }
    }
  }

  /** One surviving outcome in front of a surviving batch adds its kept post in front. */
  lemma FilterBatchCons(rs: seq<Result<Post>>, excluded: set<string>)
    requires rs != [] && Survivable(rs[0]) && FilterBatch(rs[1..], excluded).Ok?
    ensures FilterBatch(rs, excluded) == Ok(Kept(rs[0], excluded) + FilterBatch(rs[1..], excluded).value)
  {
  }

  lemma FilterBatchUncons(rs: seq<Result<Post>>, excluded: set<string>)
    requires rs != [] && FilterBatch(rs, excluded).Ok?
    ensures Survivable(rs[0]) && FilterBatch(rs[1..], excluded).Ok?
  {
  }

  lemma {:induction false} FilterBatchAppend(a: seq<Result<Post>>, b: seq<Result<Post>>, excluded: set<string>)
    requires FilterBatch(a, excluded).Ok? && FilterBatch(b, excluded).Ok?
    ensures FilterBatch(a + b, excluded) == Ok(FilterBatch(a, excluded).value + FilterBatch(b, excluded).value)
    decreases |a|
  {
    if a == [] {
      assert a + b == b;
      assert FilterBatch(a, excluded).value == [];
      assert [] + FilterBatch(b, excluded).value == FilterBatch(b, excluded).value;
    } else {
      var ab := a + b;
      assert ab[0] == a[0];
      assert ab[1..] == a[1..] + b;
      FilterBatchUncons(a, excluded);
      FilterBatchCons(a, excluded);
      FilterBatchAppend(a[1..], b, excluded);
      FilterBatchCons(ab, excluded);
      var k := Kept(a[0], excluded);
      var x := FilterBatch(a[1..], excluded).value;
      var y := FilterBatch(b, excluded).value;
      assert FilterBatch(a, excluded).value == k + x;
      assert FilterBatch(ab, excluded).value == k + (x + y);
      ConcatAssoc(k, x, y);
    }
  }

  /** Regrouping a concatenation of post lists, a step of `FilterBatchAppend`. */
  lemma ConcatAssoc(k: seq<Post>, x: seq<Post>, y: seq<Post>)
    ensures k + (x + y) == (k + x) + y
  {
  }

  lemma {:induction false} FilterBatchMembership(rs: seq<Result<Post>>, excluded: set<string>, p: Post)
    requires FilterBatch(rs, excluded).Ok?
    ensures p in FilterBatch(rs, excluded).value <==>
              exists i :: 0 <= i < |rs| && rs[i] == Ok(p) && !Blocked(p.hashTags, excluded)
    decreases |rs|
  {
    if rs != [] {
      var tail := rs[1..];
      assert forall i :: 1 <= i < |rs| ==> rs[i] == tail[i - 1];
      assert FilterBatch(tail, excluded).Ok?;
      FilterBatchMembership(tail, excluded, p);
      if exists i :: 0 <= i < |rs| && rs[i] == Ok(p) && !Blocked(p.hashTags, excluded) {
        var i :| 0 <= i < |rs| && rs[i] == Ok(p) && !Blocked(p.hashTags, excluded);
        if i > 0 {
          assert tail[i - 1] == Ok(p);
        }
      }
    }
  }

  /** The normalisation outcome of every node, in order. */
  function NodeResults(nodes: seq<Json>): (rs: seq<Result<Post>>)
    ensures |rs| == |nodes|
    ensures forall i :: 0 <= i < |nodes| ==> rs[i] == NestedPost(nodes[i])
  {
    Map(NestedPost, nodes)
  }

  lemma NodeResultsAppend(a: seq<Json>, b: seq<Json>)
    ensures NodeResults(a + b) == NodeResults(a) + NodeResults(b)
  {
    MapAppend(NestedPost, a, b);
  }


  /** `extract_instagram_posts`: normalise each nested node in order; a node
      that raises `KeyError` is logged and skipped, a node carrying an excluded
      hashtag is skipped, and any other exception aborts the whole batch,
      raising the exception of the first node that does not survive. */
  function ExtractPosts(nodes: seq<Json>, excluded: set<string>): (r: Result<seq<Post>>)
    ensures r.Ok? <==> forall i :: 0 <= i < |nodes| ==> Survivable(NestedPost(nodes[i]))
    ensures r.Ok? ==> |r.value| <= |nodes|
    ensures r.Ok? ==> forall k :: 0 <= k < |r.value| ==> !Blocked(r.value[k].hashTags, excluded)
    ensures r.Err? ==> exists i :: 0 <= i < |nodes| && NestedPost(nodes[i]) == Err(r.error)
                                   && !Survivable(NestedPost(nodes[i]))
                                   && forall j :: 0 <= j < i ==> Survivable(NestedPost(nodes[j]))
  {
    var rs := NodeResults(nodes);
    var r := FilterBatch(rs, excluded);
    assert forall i :: 0 <= i < |nodes| ==> rs[i] == NestedPost(nodes[i]);
    if r.Err? then
      FilterBatchFirstError(rs, excluded);
      r
    else
      r
  }

  /** The batch is an order-preserving filter: two consecutive batches give the
      posts of the first followed by the posts of the second. */
  lemma ExtractPostsAppend(a: seq<Json>, b: seq<Json>, excluded: set<string>)
    requires ExtractPosts(a, excluded).Ok? && ExtractPosts(b, excluded).Ok?
    ensures ExtractPosts(a + b, excluded) == Ok(ExtractPosts(a, excluded).value + ExtractPosts(b, excluded).value)
  {
    NodeResultsAppend(a, b);
    FilterBatchAppend(NodeResults(a), NodeResults(b), excluded);
  }

  /** A single node contributes its post exactly when it is well formed and
      carries no excluded hashtag. */
  lemma ExtractPostsSingle(node: Json, excluded: set<string>)
    requires Survivable(NestedPost(node))
    ensures ExtractPosts([node], excluded) == Ok(Kept(NestedPost(node), excluded))
  {
    var rs := NodeResults([node]);
    assert rs == [NestedPost(node)];
    assert rs[1..] == [];
    assert Kept(rs[0], excluded) + [] == Kept(rs[0], excluded);
  }

  /** A node that raises `TypeError` (a container that is not a dict) ends the
      batch with that error once the nodes before it have been survived, whatever
      follows: unlike `KeyError`, it is not skipped. */
  lemma TypeErrorNodeAbortsBatch(a: seq<Json>, node: Json, b: seq<Json>, excluded: set<string>)
    requires NestedPost(node) == Err(TypeError)
    requires ExtractPosts(a, excluded).Ok?
    ensures ExtractPosts(a + [node] + b, excluded) == Err(TypeError)
  {
    var all := a + [node] + b;
    assert all[|a|] == node;
    var r := ExtractPosts(all, excluded);
    assert !Survivable(NestedPost(all[|a|]));
    assert r.Err?;
    var i :| 0 <= i < |all| && NestedPost(all[i]) == Err(r.error)
             && !Survivable(NestedPost(all[i]))
             && forall j :: 0 <= j < i ==> Survivable(NestedPost(all[j]));
    assert forall k :: 0 <= k < |a| ==> all[k] == a[k];
    assert i == |a|;
  }

  /** Hashtags are stored without their `#`, so exclusion entries written with a
      leading `#` never block a post. */
  lemma HashPrefixedExclusionNeverBlocks(caption: Option<string>, excluded: set<string>)
    requires forall e :: e in excluded ==> StartsWithHash(e)
    ensures !Blocked(HashTags(caption), excluded)
  {
  }

  /** A node that raises `KeyError` is dropped without disturbing the rest of the
      batch, wherever it sits. */
  lemma MalformedNodeSkipped(a: seq<Json>, node: Json, b: seq<Json>, excluded: set<string>)
    requires NestedPost(node) == Err(KeyError)
    ensures ExtractPosts(a + [node] + b, excluded) == ExtractPosts(a + b, excluded)
  {
    NodeResultsAppend(a + [node], b);
    NodeResultsAppend(a, [node]);
    NodeResultsAppend(a, b);
    assert NodeResults([node]) == [Err(KeyError)];
    FilterBatchSkip(NodeResults(a), Err(KeyError), NodeResults(b), excluded);
  }

  lemma {:induction false} FilterBatchSkip(a: seq<Result<Post>>, x: Result<Post>, b: seq<Result<Post>>, excluded: set<string>)
    requires x == Err(KeyError)
    ensures FilterBatch(a + [x] + b, excluded) == FilterBatch(a + b, excluded)
    decreases |a|
  {
    if a == [] {
      assert a + [x] + b == [x] + b;
      assert ([x] + b)[0] == x;
      assert ([x] + b)[1..] == b;
      assert a + b == b;
      assert Kept(x, excluded) == [];
      if FilterBatch(b, excluded).Ok? {
        assert [] + FilterBatch(b, excluded).value == FilterBatch(b, excluded).value;
      }
    } else {
      var y := a + [x] + b;
      assert y[0] == a[0] && y[1..] == a[1..] + [x] + b;
      assert (a + b)[0] == a[0] && (a + b)[1..] == a[1..] + b;
      FilterBatchSkip(a[1..], x, b, excluded);
    }
  }

  /** Membership both ways: a post is in the batch iff some node normalises to
      it and none of its hashtags is excluded. */
  lemma ExtractPostsMembership(nodes: seq<Json>, excluded: set<string>, p: Post)
    requires ExtractPosts(nodes, excluded).Ok?
    ensures p in ExtractPosts(nodes, excluded).value <==>
              exists i :: 0 <= i < |nodes| && NestedPost(nodes[i]) == Ok(p) && !Blocked(p.hashTags, excluded)
  {
    var rs := NodeResults(nodes);
    FilterBatchMembership(rs, excluded, p);
    assert forall i :: 0 <= i < |nodes| ==> rs[i] == NestedPost(nodes[i]);
  }

  /** The flat first page, `[extract_recent_instagram_post(n) for n in nodes]`:
      there is no error handling and no exclusion filter, so the first node that
      raises aborts the page, and every other node yields one post in order. */
  function RecentPosts(nodes: seq<Json>): (r: Result<seq<Post>>)
    ensures r.Ok? <==> forall i :: 0 <= i < |nodes| ==> FlatPost(nodes[i]).Ok?
    ensures r.Ok? ==> |r.value| == |nodes|
    ensures r.Ok? ==> forall i :: 0 <= i < |nodes| ==> r.value[i] == FlatPost(nodes[i]).value
    ensures r.Err? ==> exists i :: 0 <= i < |nodes| && FlatPost(nodes[i]) == Err(r.error)
                                   && forall j :: 0 <= j < i ==> FlatPost(nodes[j]).Ok?
  {
    var rs := Map(FlatPost, nodes);
    var r := AllOk(rs);
    if r.Err? then
      var i :| 0 <= i < |rs| && rs[i] == Err(r.error) && forall j :: 0 <= j < i ==> rs[j].Ok?;
      assert FlatPost(nodes[i]) == Err(r.error);
      r
    else
      r
  }
}

=== FILE: query_ids.dfy ===
/** Finding the GraphQL query id: `get_query_id` scans the `en_US_Commons`
    scripts for `(?<=queryId:")[0-9]{17,17}`, and `extract_recent_tag` probes
    the candidates in order until one answers with a `hashtag` payload. */
module QueryIds {
  import opened Values

  /** The text the look-behind `(?<=queryId:")` requires before a match. */
  const Marker: string := "queryId:\""

  /** The number of digits of `[0-9]{17,17}`. */
  const IdLength: nat := 17

  predicate IsDigit(c: char)
  {
    '0' <= c <= '9'
  }

  predicate AllDigits(s: string)
  {
    forall i :: 0 <= i < |s| ==> IsDigit(s[i])
  }

  /** A query id as the pattern matches it: exactly 17 ASCII digits. */
  predicate IsQueryId(s: string)
  {
    |s| == IdLength && AllDigits(s)
  }

  /** The pattern matches at position `i`: the marker ends at `i` and 17 digits follow. */
  predicate MatchAt(t: string, i: nat)
  {
    && |Marker| <= i
    && i + IdLength <= |t|
    && t[i - |Marker| .. i] == Marker
    && AllDigits(t[i .. i + IdLength])
  }

  /** `re.findall` from position `i`: try each position in turn, and after a
      match resume the search where that match ends. */
  function ScanFrom(t: string, i: nat): (ids: seq<string>)
    ensures forall k :: 0 <= k < |ids| ==> IsQueryId(ids[k])
    decreases |t| - i
  {
    if i + IdLength > |t| then []
    else if MatchAt(t, i) then [t[i .. i + IdLength]] + ScanFrom(t, i + IdLength)
    else ScanFrom(t, i + 1)
  }

  /** The query ids of one script text, in text order. */
  function QueryIdsOf(t: string): (ids: seq<string>)
    ensures forall k :: 0 <= k < |ids| ==> IsQueryId(ids[k])
  {
    ScanFrom(t, 0)
  }

  /** Reference definition: the text at every position where the pattern
      matches, in order, with no skipping. */
  function AllMatches(t: string, i: nat): seq<string>
    decreases |t| - i
  {
    if i + IdLength > |t| then []
    else (if MatchAt(t, i) then [t[i .. i + IdLength]] else []) + AllMatches(t, i + 1)
  }

  /** Matches cannot overlap: inside a match every position is preceded by a
      digit, while the marker ends with a quote. */
  lemma NoMatchInside(t: string, i: nat, j: nat)
    requires MatchAt(t, i) && i < j < i + IdLength
    ensures !MatchAt(t, j)
  {
    QuoteBeforeMatch(t, j);
    assert t[i .. i + IdLength][j - 1 - i] == t[j - 1];
    assert IsDigit(t[j - 1]);
  }

  lemma QuoteBeforeMatch(t: string, j: nat)
    ensures MatchAt(t, j) ==> t[j - 1] == '"'
  {
    if MatchAt(t, j) {
      assert t[j - |Marker| .. j][|Marker| - 1] == t[j - 1];
    }
  }

  lemma {:induction false} SkipNonMatches(t: string, i: nat, k: nat)
    requires i <= k
    requires forall j :: i <= j < k ==> !MatchAt(t, j)
    ensures AllMatches(t, i) == AllMatches(t, k)
    decreases k - i
  {
    if i < k && i + IdLength <= |t| {
      SkipNonMatches(t, i + 1, k);
      assert AllMatches(t, i) == [] + AllMatches(t, i + 1);
    } else if i < k {
      SkipNonMatches(t, i + 1, k);
    }
  }

  /** Resuming after a match loses nothing: the scan finds every match. */
  lemma {:induction false} ScanFindsAllMatches(t: string, i: nat)
    ensures ScanFrom(t, i) == AllMatches(t, i)
    decreases |t| - i
  {
    if i + IdLength <= |t| {
      if MatchAt(t, i) {
        var m := t[i .. i + IdLength];
        assert ScanFrom(t, i) == [m] + ScanFrom(t, i + IdLength);
        assert AllMatches(t, i) == [m] + AllMatches(t, i + 1);
        SkipInsideMatch(t, i);
        ScanFindsAllMatches(t, i + IdLength);
      } else {
        assert ScanFrom(t, i) == ScanFrom(t, i + 1);
        assert AllMatches(t, i) == [] + AllMatches(t, i + 1);
        ScanFindsAllMatches(t, i + 1);
      }
    }
  }

  /** After a match, the positions it covers hold no further match. */
  lemma SkipInsideMatch(t: string, i: nat)
    requires MatchAt(t, i)
    ensures AllMatches(t, i + 1) == AllMatches(t, i + IdLength)
  {
    forall j | i + 1 <= j < i + IdLength
      ensures !MatchAt(t, j)
    {
      NoMatchInside(t, i, j);
    }
    SkipNonMatches(t, i + 1, i + IdLength);
  }

  /** The pattern matches at `j` and the matched text is `x`. */
  predicate FoundAt(t: string, j: nat, x: string)
  {
    MatchAt(t, j) && t[j .. j + IdLength] == x
  }

  lemma {:induction false} AllMatchesMembership(t: string, i: nat, x: string)
    ensures x in AllMatches(t, i) <==> exists j: nat :: i <= j && FoundAt(t, j, x)
    decreases |t| - i
  {
    if i + IdLength > |t| {
      assert forall j: nat :: i <= j ==> !FoundAt(t, j, x);
    } else {
      AllMatchesMembership(t, i + 1, x);
      var here := if MatchAt(t, i) then [t[i .. i + IdLength]] else [];
      assert AllMatches(t, i) == here + AllMatches(t, i + 1);
      assert x in here <==> FoundAt(t, i, x);
      if exists j: nat :: i <= j && FoundAt(t, j, x) {
        var j: nat :| i <= j && FoundAt(t, j, x);
        assert j == i || (i + 1 <= j && FoundAt(t, j, x));
      }
    }
  }

  /** A string is found iff it is the 17 digits after some occurrence of the marker. */
  lemma QueryIdsMembership(t: string, x: string)
    ensures x in QueryIdsOf(t) <==> exists j: nat :: FoundAt(t, j, x)
  {
    ScanFindsAllMatches(t, 0);
    AllMatchesMembership(t, 0, x);
  }

  /** A script text that is just the marker and an id yields that id. */
  lemma QueryIdOfMarkedText(d: string)
    requires IsQueryId(d)
    ensures QueryIdsOf(Marker + d) == [d]
  {
    var t := Marker + d;
    assert t[|Marker| .. |Marker| + IdLength] == d;
    assert t[0 .. |Marker|] == Marker;
    assert MatchAt(t, |Marker|);
    ScanFindsAllMatches(t, 0);
    forall j | 0 <= j < |Marker|
      ensures !MatchAt(t, j)
    {
    }
    SkipNonMatches(t, 0, |Marker|);
    assert AllMatches(t, |Marker| + 1) == [];
  }

  /** A `<script>` tag of the tag page, with its `src` attribute if it has one. */
  datatype Script = Script(src: Option<string>)

  predicate OccursAt(s: string, part: string, i: int)
  {
    0 <= i <= |s| - |part| && s[i .. i + |part|] == part
  }

  /** Python's `part in s` for strings. */
  predicate Contains(s: string, part: string)
  {
    exists i :: 0 <= i <= |s| - |part| && OccursAt(s, part, i)
  }

  /** A script whose `src` attribute exists and contains `en_US_Commons`. */
  predicate IsCommonsScript(sc: Script)
    ensures IsCommonsScript(sc) ==> sc.src.Some? && |sc.src.value| >= |"en_US_Commons"|
  {
    sc.src.Some? && Contains(sc.src.value, "en_US_Commons")
  }

  /** The marker may sit anywhere in `src`; a script without `src` never counts. */
  lemma CommonsScriptRecognised(before: string, after: string)
    ensures IsCommonsScript(Script(Some(before + "en_US_Commons" + after)))
    ensures !IsCommonsScript(Script(None))
  {
    var src := before + "en_US_Commons" + after;
    assert src[|before| .. |before| + |"en_US_Commons"|] == "en_US_Commons";
    assert OccursAt(src, "en_US_Commons", |before|);
  }

  /** `get_query_id`: the query ids of every commons script, fetched through
      `fetch` (the text at the instagram root plus `src`), in document order. */
  function GetQueryIds(scripts: seq<Script>, fetch: string -> string): (ids: seq<string>)
    ensures forall k :: 0 <= k < |ids| ==> IsQueryId(ids[k])
    ensures (forall i :: 0 <= i < |scripts| ==> !IsCommonsScript(scripts[i])) ==> ids == []
  {
    if scripts == [] then []
    else
      var here := if IsCommonsScript(scripts[0]) then QueryIdsOf(fetch(scripts[0].src.value)) else [];
      assert forall i :: 1 <= i < |scripts| ==> scripts[1..][i - 1] == scripts[i];
      here + GetQueryIds(scripts[1..], fetch)
  }

  lemma {:induction false} GetQueryIdsAppend(a: seq<Script>, b: seq<Script>, fetch: string -> string)
    ensures GetQueryIds(a + b, fetch) == GetQueryIds(a, fetch) + GetQueryIds(b, fetch)
    decreases |a|
  {
    if a == [] {
      assert a + b == b;
    } else {
      assert (a + b)[0] == a[0];
      assert (a + b)[1..] == a[1..] + b;
      GetQueryIdsAppend(a[1..], b, fetch);
    }
  }

  /** One script contributes the ids found in its fetched text when it is a
      commons script, and nothing otherwise. */
  lemma GetQueryIdsSingle(sc: Script, fetch: string -> string)
    ensures GetQueryIds([sc], fetch) == if IsCommonsScript(sc) then QueryIdsOf(fetch(sc.src.value)) else []
  {
  }

  /** An id is a candidate exactly when some commons script's fetched text
      yields it. */
  lemma {:induction false} GetQueryIdsMembership(scripts: seq<Script>, fetch: string -> string, x: string)
    ensures x in GetQueryIds(scripts, fetch) <==>
      exists i :: 0 <= i < |scripts| && IsCommonsScript(scripts[i]) && x in QueryIdsOf(fetch(scripts[i].src.value))
    decreases |scripts|
  {
    if scripts != [] {
      var tail := scripts[1..];
      GetQueryIdsMembership(tail, fetch, x);
      if x in GetQueryIds(scripts, fetch) {
        if !(IsCommonsScript(scripts[0]) && x in QueryIdsOf(fetch(scripts[0].src.value))) {
          var j :| 0 <= j < |tail| && IsCommonsScript(tail[j]) && x in QueryIdsOf(fetch(tail[j].src.value));
          assert scripts[j + 1] == tail[j];
        }
      } else {
        forall i | 0 <= i < |scripts| && IsCommonsScript(scripts[i])
          ensures x !in QueryIdsOf(fetch(scripts[i].src.value))
        {
          if i > 0 {
            assert tail[i - 1] == scripts[i];
          }
        }
      }
    }
  }

  /** A probe the loop moves past: a non-JSON body (the `JSONDecodeError` it
      catches) or a JSON body without a `hashtag` payload. */
  predicate Skipped(r: Response)
  {
    r.NotJson? || r.NoHashtag?
  }

  /** How probing the candidates ends. */
  datatype Probing = Accepted(index: nat) | ProbeRaised(error: PyError) | NoneAccepted

  /** Candidate `k` answers with a `hashtag` payload and every earlier one was skipped. */
  predicate AcceptsAt(cands: seq<string>, probe: string -> Response, k: int)
  {
    0 <= k < |cands| && probe(cands[k]).Page? && forall j :: 0 <= j < k ==> Skipped(probe(cands[j]))
  }

  /** Candidate `k` answers without `data` and every earlier one was skipped. */
  predicate RaisesAt(cands: seq<string>, probe: string -> Response, k: int)
  {
    0 <= k < |cands| && probe(cands[k]).NoData? && forall j :: 0 <= j < k ==> Skipped(probe(cands[j]))
  }

  /** The `for potential_id in potential_query_ids` loop: the first candidate
      whose response carries `hashtag` is taken; a response without `data`
      raises `KeyError` out of the loop; the others are skipped. */
  function Probe(cands: seq<string>, probe: string -> Response): (r: Probing)
    ensures r.Accepted? ==> AcceptsAt(cands, probe, r.index)
    ensures forall k :: AcceptsAt(cands, probe, k) ==> r == Accepted(k)
    ensures r.ProbeRaised? ==> r.error == KeyError && exists k :: RaisesAt(cands, probe, k)
    ensures forall k :: RaisesAt(cands, probe, k) ==> r == ProbeRaised(KeyError)
    ensures r.NoneAccepted? <==> forall j :: 0 <= j < |cands| ==> Skipped(probe(cands[j]))
  {
    if cands == [] then NoneAccepted
    else
      var resp := probe(cands[0]);
      if resp.Page? then
        assert forall k :: AcceptsAt(cands, probe, k) ==> k == 0;
        Accepted(0)
      else if resp.NoData? then
        assert RaisesAt(cands, probe, 0);
        assert forall k :: RaisesAt(cands, probe, k) ==> k == 0;
        ProbeRaised(KeyError)
      else
        var tail := cands[1..];
        var rest := Probe(tail, probe);
        assert forall j :: 1 <= j < |cands| ==> tail[j - 1] == cands[j];
        assert forall k :: 1 <= k ==> (AcceptsAt(cands, probe, k) <==> AcceptsAt(tail, probe, k - 1)) by {
          forall k | 1 <= k
            ensures AcceptsAt(cands, probe, k) <==> AcceptsAt(tail, probe, k - 1)
          {
            if AcceptsAt(tail, probe, k - 1) {
              forall j | 0 <= j < k
                ensures Skipped(probe(cands[j]))
              {
                if j > 0 {
                  assert cands[j] == tail[j - 1];
                }
              }
            }
          }
        }
        assert forall k :: 1 <= k ==> (RaisesAt(cands, probe, k) <==> RaisesAt(tail, probe, k - 1)) by {
          forall k | 1 <= k
            ensures RaisesAt(cands, probe, k) <==> RaisesAt(tail, probe, k - 1)
          {
            if RaisesAt(tail, probe, k - 1) {
              forall j | 0 <= j < k
                ensures Skipped(probe(cands[j]))
              {
                if j > 0 {
                  assert cands[j] == tail[j - 1];
                }
              }
            }
          }
        }
        assert !AcceptsAt(cands, probe, 0) && !RaisesAt(cands, probe, 0);
        match rest
        case Accepted(k) =>
          assert AcceptsAt(cands, probe, k + 1);
          Accepted(k + 1)
        case ProbeRaised(e) =>
          var k :| RaisesAt(tail, probe, k);
          assert RaisesAt(cands, probe, k + 1);
          ProbeRaised(e)
        case NoneAccepted => NoneAccepted
  }

  /** Query-id selection as written: `success` is only ever assigned inside the
      loop, so when no candidate is accepted `if not success` reads an unbound
      local and raises `UnboundLocalError`. */
  function SelectQueryIdAsWritten(cands: seq<string>, probe: string -> Response): (r: Result<string>)
    ensures forall k :: AcceptsAt(cands, probe, k) ==> r == Ok(cands[k])
    ensures r.Ok? ==> exists k :: AcceptsAt(cands, probe, k) && cands[k] == r.value
    ensures r == Err(UnboundLocalError) <==> forall j :: 0 <= j < |cands| ==> Skipped(probe(cands[j]))
    ensures r == Err(KeyError) <==> exists k :: RaisesAt(cands, probe, k)
  {
    match Probe(cands, probe)
    case Accepted(k) => Ok(cands[k])
    case ProbeRaised(e) => Err(e)
    case NoneAccepted => Err(UnboundLocalError)
  }

  /** As written, the `log.error(...); sys.exit(1)` branch is never reached. */
  lemma AsWrittenNeverExits(cands: seq<string>, probe: string -> Response, code: int)
    ensures SelectQueryIdAsWritten(cands, probe) != Err(SystemExit(code))
  {
  }

  /** With no candidate at all (no commons script, or one without a query id)
      the as-written selection raises `UnboundLocalError`. */
  lemma AsWrittenNoCandidates(probe: string -> Response)
    ensures SelectQueryIdAsWritten([], probe) == Err(UnboundLocalError)
  {
  }

  /** The same happens when every candidate is skipped, for instance when each
      probe answers without a `hashtag` payload. */
  lemma AsWrittenAllSkipped(cands: seq<string>, probe: string -> Response)
    requires forall j :: 0 <= j < |cands| ==> Skipped(probe(cands[j]))
    ensures SelectQueryIdAsWritten(cands, probe) == Err(UnboundLocalError)
    ensures SelectQueryId(cands, probe) == Err(SystemExit(1))
  {
  }

  /** Query-id selection as intended: the first accepted candidate, or the
      logged error and `sys.exit(1)` when none is accepted. */
  function SelectQueryId(cands: seq<string>, probe: string -> Response): (r: Result<string>)
    ensures forall k :: AcceptsAt(cands, probe, k) ==> r == Ok(cands[k])
    ensures r.Ok? ==> exists k :: AcceptsAt(cands, probe, k) && cands[k] == r.value
    ensures r == Err(SystemExit(1)) <==> forall j :: 0 <= j < |cands| ==> Skipped(probe(cands[j]))
    ensures r == Err(KeyError) <==> exists k :: RaisesAt(cands, probe, k)
  {
    match Probe(cands, probe)
    case Accepted(k) => Ok(cands[k])
    case ProbeRaised(e) => Err(e)
    case NoneAccepted => Err(SystemExit(1))
  }

  /** The two selections agree whenever some candidate is accepted or a probe raises. */
  lemma SelectionsAgreeExceptWhenNoneAccepted(cands: seq<string>, probe: string -> Response)
    ensures !Probe(cands, probe).NoneAccepted? ==>
              SelectQueryIdAsWritten(cands, probe) == SelectQueryId(cands, probe)
  {
  }
}

=== FILE: sink.dfy ===
/** The dedup sink of `HashTagSearchExample.save_results`: a collection with a
    unique index on `postId`, where `insert_one` either stores a post or raises
    `DuplicateKeyError`, plus the crawler's cumulative counters. */
module Sink {
  import opened Values
  import opened Normalize

  /** What one `insert_one` does under the unique `postId` index. */
  datatype Outcome = Inserted | Duplicate

  /** The stored `postId`s and the crawler's running totals
      (`self.new_posts`, `self.duplicate_posts`). */
  datatype Store = Store(ids: set<Json>, newPosts: nat, duplicatePosts: nat)

  /** One `insert_one(post)`: a new `postId` is stored, a known one is refused. */
  function InsertOne(ids: set<Json>, id: Json): (o: Outcome)
    ensures o == Inserted <==> id !in ids
  {
    if id in ids then Duplicate else Inserted
  }

  /** The `postId` of every post of a batch, in order. */
  function PostIds(posts: seq<Post>): (keys: seq<Json>)
    ensures |keys| == |posts|
    ensures forall i :: 0 <= i < |posts| ==> keys[i] == posts[i].postId
  {
    seq(|posts|, i requires 0 <= i < |posts| => posts[i].postId)
  }

  function Elems(keys: seq<Json>): (e: set<Json>)
    ensures forall x :: x in e <==> x in keys
  {
    set x | x in keys
  }

  /** The result of inserting a batch of keys one at a time. */
  datatype BatchResult = BatchResult(ids: set<Json>, outcomes: seq<Outcome>, added: nat, refused: nat)

  /** The insert loop of `save_results` over the batch's keys: each key is
      offered to the collection in order and exactly one of the two counters
      moves for it. A key counts as new iff it was neither stored before nor
      inserted earlier in the same batch; afterwards every key of the batch is
      stored, and the new count is the number of keys added. */
  function InsertAll(ids: set<Json>, keys: seq<Json>): (r: BatchResult)
    ensures r.added + r.refused == |keys|
    ensures r.ids == ids + Elems(keys)
    ensures r.added == |r.ids - ids|
    ensures |r.outcomes| == |keys|
    ensures forall i :: 0 <= i < |keys| ==>
              (r.outcomes[i] == Inserted <==> keys[i] !in ids && keys[i] !in keys[..i])
    decreases |keys|
  {
    if keys == [] then
      BatchResult(ids, [], 0, 0)
    else
      var o := InsertOne(ids, keys[0]);
      var rest := InsertAll(ids + {keys[0]}, keys[1..]);
      ElemsCons(keys);
      AddedStep(ids, keys[0], rest.ids);
      OutcomesStep(ids, keys, o, rest.outcomes);
      BatchResult(rest.ids, [o] + rest.outcomes,
                  rest.added + (if o == Inserted then 1 else 0),
                  rest.refused + (if o == Duplicate then 1 else 0))
  }

  lemma ElemsCons(keys: seq<Json>)
    requires keys != []
    ensures Elems(keys) == {keys[0]} + Elems(keys[1..])
  {
    assert keys == [keys[0]] + keys[1..];
  }

  /** Inserting one key adds one to the size of the difference iff it was new. */
  lemma AddedStep(ids: set<Json>, id: Json, after: set<Json>)
    requires ids + {id} <= after
    ensures |after - ids| == |after - (ids + {id})| + (if id in ids then 0 else 1)
  {
    if id in ids {
      assert ids + {id} == ids;
    } else {
      assert after - ids == (after - (ids + {id})) + {id};
    }
  }

  lemma OutcomesStep(ids: set<Json>, keys: seq<Json>, o: Outcome, rest: seq<Outcome>)
    requires keys != [] && o == InsertOne(ids, keys[0])
    requires |rest| == |keys| - 1
    requires forall i :: 0 <= i < |keys| - 1 ==>
               (rest[i] == Inserted <==> keys[1..][i] !in ids + {keys[0]} && keys[1..][i] !in keys[1..][..i])
    ensures forall i :: 0 <= i < |keys| ==>
              (([o] + rest)[i] == Inserted <==> keys[i] !in ids && keys[i] !in keys[..i])
  {
    forall i | 0 <= i < |keys|
      ensures ([o] + rest)[i] == Inserted <==> keys[i] !in ids && keys[i] !in keys[..i]
    {
      if i > 0 {
        assert keys[i] == keys[1..][i - 1];
        assert keys[..i] == [keys[0]] + keys[1..][..i - 1];
      }
    }
  }

  lemma ElemsSnoc(keys: seq<Json>, i: int)
    requires 0 <= i < |keys|
    ensures Elems(keys[..i + 1]) == Elems(keys[..i]) + {keys[i]}
  {
    assert keys[..i + 1] == keys[..i] + [keys[i]];
  }

  lemma GrowDifference(base: set<Json>, ids: set<Json>, id: Json)
    requires base <= ids && id !in ids
    ensures |(ids + {id}) - base| == |ids - base| + 1
  {
    assert (ids + {id}) - base == (ids - base) + {id};
  }

  /** `save_results`: run the insert loop over the batch's `postId`s, then add
      the batch counts to the crawler's running totals. */
  function SaveResults(s: Store, posts: seq<Post>): (r: Store)
    ensures r.ids == s.ids + Elems(PostIds(posts))
    ensures r.newPosts == s.newPosts + |r.ids - s.ids|
    ensures r.newPosts + r.duplicatePosts == s.newPosts + s.duplicatePosts + |posts|
    ensures r.newPosts >= s.newPosts && r.duplicatePosts >= s.duplicatePosts
  {
    var b := InsertAll(s.ids, PostIds(posts));
    Store(b.ids, s.newPosts + b.added, s.duplicatePosts + b.refused)
  }

  /** The loop of `save_results` as the code writes it, with its two local
      counters. What it ensures pins the result down to `SaveResults`
      (`SaveResultsDetermined`). */
  method SaveBatch(s: Store, posts: seq<Post>) returns (r: Store, newCount: nat, duplicateCount: nat)
    ensures newCount + duplicateCount == |posts|
    ensures r.ids == s.ids + Elems(PostIds(posts))
    ensures newCount == |r.ids - s.ids|
    ensures r.newPosts == s.newPosts + newCount && r.duplicatePosts == s.duplicatePosts + duplicateCount
  {
    var keys := PostIds(posts);
    var ids := s.ids;
    newCount := 0;
    duplicateCount := 0;
    var i := 0;
    while i < |keys|
      invariant 0 <= i <= |keys|
      invariant newCount + duplicateCount == i
      invariant ids == s.ids + Elems(keys[..i])
      invariant newCount == |ids - s.ids|
    {
      var id := keys[i];
      ElemsSnoc(keys, i);
      if InsertOne(ids, id) == Inserted {
        GrowDifference(s.ids, ids, id);
        ids := ids + {id};
        newCount := newCount + 1;
      } else {
        duplicateCount := duplicateCount + 1;
      }
      i := i + 1;
    }
    assert keys[..i] == keys;
    r := Store(ids, s.newPosts + newCount, s.duplicatePosts + duplicateCount);
  }

  /** The stored ids and the totals pin a save's result down completely: any
      store meeting what `SaveBatch` ensures is the one `SaveResults` gives. */
  lemma SaveResultsDetermined(s: Store, posts: seq<Post>, r: Store)
    requires r.ids == s.ids + Elems(PostIds(posts))
    requires r.newPosts == s.newPosts + |r.ids - s.ids|
    requires r.newPosts + r.duplicatePosts == s.newPosts + s.duplicatePosts + |posts|
    ensures r == SaveResults(s, posts)
  {
  }

  /** Saving a batch a second time inserts nothing: every post is a duplicate
      and the stored ids stay as they are. */
  lemma SaveTwiceNoNew(s: Store, posts: seq<Post>)
    ensures var once := SaveResults(s, posts);
            var twice := SaveResults(once, posts);
            && twice.ids == once.ids
            && twice.newPosts == once.newPosts
            && twice.duplicatePosts == once.duplicatePosts + |posts|
  {
    var once := SaveResults(s, posts);
    assert once.ids + Elems(PostIds(posts)) == once.ids;
  }

  /** Every key of a batch that is already stored comes back as a duplicate. */
  lemma StoredBatchAllDuplicates(ids: set<Json>, keys: seq<Json>)
    requires Elems(keys) <= ids
    ensures InsertAll(ids, keys).added == 0
    ensures forall i :: 0 <= i < |keys| ==> InsertAll(ids, keys).outcomes[i] == Duplicate
  {
    var r := InsertAll(ids, keys);
    assert r.ids == ids;
    forall i | 0 <= i < |keys|
      ensures r.outcomes[i] == Duplicate
    {
      assert keys[i] in Elems(keys);
    }
  }

  /** A key occurring twice in one batch is inserted at most once. */
  lemma RepeatedKeyInsertedOnce(ids: set<Json>, keys: seq<Json>, i: int, j: int)
    requires 0 <= i < j < |keys| && keys[i] == keys[j]
    ensures InsertAll(ids, keys).outcomes[j] == Duplicate
  {
    assert keys[j] == keys[..j][i];
  }
}

=== FILE: values.dfy ===
/** Decoded inputs of the crawler: JSON values with the subscript semantics of
    Python's `dict`/`list`/`str`, the Python exceptions the record-handling code
    can raise, and the shapes of a GraphQL page response. */
module Values {

  /** A JSON document as returned by `json.loads` / `response.json()`:
      `None`, `bool`, `int`, `str`, `list` and `dict` (floats are not among
      the values modelled). */
  datatype Json =
    | Null
    | Bool(b: bool)
    | Int(i: int)
    | Str(s: string)
    | Arr(items: seq<Json>)
    | Obj(fields: map<string, Json>)

  /** The Python exceptions that matter to the control flow of the crawler. */
  datatype PyError =
    | KeyError           // `d[k]` on a dict without key `k`
    | TypeError          // subscript or `len` of a value that does not support it
    | AttributeError     // `.split()` on a caption that is not a string
    | JsonDecodeError    // a response body that is not JSON
    | UnboundLocalError  // a local variable read before any assignment
    | SystemExit(code: int)

  datatype Option<+T> = None | Some(value: T)

  /** Either a value or the exception that interrupted its computation. */
  datatype Result<+T> = Ok(value: T) | Err(error: PyError) {
    predicate IsFailure() {
      Err?
    }

    function PropagateFailure<U>(): Result<U>
      requires Err?
    {
      Err(error)
    }

    function Extract(): T
      requires Ok?
    {
      value
    }
  }

  /** Python's `j[key]` for a string key. */
  function Subscript(j: Json, key: string): (r: Result<Json>)
    ensures r.Ok? <==> j.Obj? && key in j.fields
    ensures r.Ok? ==> r.value == j.fields[key]
    ensures r.Err? ==> r.error == if j.Obj? then KeyError else TypeError
  {
    match j
    case Obj(m) => if key in m then Ok(m[key]) else Err(KeyError)
    case _ => Err(TypeError)
  }

  /** Python's `j[key] if key in j else None`, on a value already known to be a dict. */
  function GetOrNone(j: Json, key: string): (r: Json)
    requires j.Obj?
    ensures key !in j.fields ==> r == Null
    ensures key in j.fields ==> r == j.fields[key]
  {
    if key in j.fields then j.fields[key] else Null
  }

  /** `f` applied to every element, in order. */
  function Map<A, B>(f: A -> B, xs: seq<A>): (ys: seq<B>)
    ensures |ys| == |xs|
    ensures forall i :: 0 <= i < |xs| ==> ys[i] == f(xs[i])
  {
    seq(|xs|, i requires 0 <= i < |xs| => f(xs[i]))
  }

  lemma MapAppend<A, B>(f: A -> B, a: seq<A>, b: seq<A>)
    ensures Map(f, a + b) == Map(f, a) + Map(f, b)
  {
    var x := Map(f, a + b);
    var y := Map(f, a) + Map(f, b);
    forall i | 0 <= i < |x|
      ensures x[i] == y[i]
    {
      if i < |a| {
        assert (a + b)[i] == a[i];
      } else {
        assert (a + b)[i] == b[i - |a|];
      }
    }
  }

  /** Evaluating a list of results in order, as a list comprehension does:
      the first error aborts the whole list, otherwise every value is kept. */
  function AllOk<T>(rs: seq<Result<T>>): (r: Result<seq<T>>)
    ensures r.Ok? <==> forall i :: 0 <= i < |rs| ==> rs[i].Ok?
    ensures r.Ok? ==> |r.value| == |rs|
    ensures r.Ok? ==> forall i :: 0 <= i < |rs| ==> r.value[i] == rs[i].value
    ensures r.Err? ==> exists i :: 0 <= i < |rs| && rs[i] == Err(r.error)
                                   && forall j :: 0 <= j < i ==> rs[j].Ok?
  {
    if rs == [] then Ok([])
    else
      var head :- rs[0];
      var tail := rs[1..];
      var rest := AllOk(tail);
      assert forall i :: 1 <= i < |rs| ==> tail[i - 1] == rs[i];
      if rest.Err? then
        var i :| 0 <= i < |tail| && tail[i] == Err(rest.error) && forall j :: 0 <= j < i ==> tail[j].Ok?;
        assert rs[i + 1] == Err(rest.error);
        assert forall j :: 0 <= j < i + 1 ==> rs[j].Ok? by {
          forall j | 0 <= j < i + 1
            ensures rs[j].Ok?
          {
            if j > 0 {
              assert rs[j] == tail[j - 1];
            }
          }
        }
        rest
      else
        Ok([head] + rest.value)
  }

  /** Python's `len(j)`: defined for lists, dicts and strings only. */
  function Len(j: Json): (r: Result<nat>)
    ensures r.Ok? <==> j.Arr? || j.Obj? || j.Str?
    ensures j.Arr? ==> r == Ok(|j.items|)
    ensures j.Obj? ==> r == Ok(|j.fields|)
    ensures j.Str? ==> r == Ok(|j.s|)
    ensures r.Err? ==> r.error == TypeError
  {
    match j
    case Arr(xs) => Ok(|xs|)
    case Obj(m) => Ok(|m|)
    case Str(s) => Ok(|s|)
    case _ => Err(TypeError)
  }

  /** Python's `j[0]` on a value whose `len` is positive. A JSON dict has only
      string keys, so the integer key 0 is never present; a string yields its
      first character. */
  function First(j: Json): (r: Result<Json>)
    requires Len(j).Ok? && Len(j).value > 0
    ensures j.Arr? ==> r == Ok(j.items[0])
    ensures j.Obj? ==> r == Err(KeyError)
  {
    if j.Arr? then Ok(j.items[0])
    else if j.Obj? then Err(KeyError)
    else Ok(Str([j.s[0]]))
  }

  /** What one GraphQL query response decodes to, as far as the crawler looks at it. */
  datatype Response =
    | NotJson                                       // body is not JSON: `.json()` raises
    | NoData                                        // JSON without a `data` key
    | NoHashtag                                     // `'hashtag' not in data['data']`: the "empty response"
    | Page(endCursor: Option<string>, edges: seq<Json>)  // `edge_hashtag_to_media` with its page info
}
